=== FILE: README.md ===
# Postgres policy store of speedle-plus, modelled in Dafny

The postgres store keeps every service of a policy store in one table,
`<prefix>services`. Each row has four parts:

- the service name, which is the primary key;
- a type string;
- two jsonb arrays of sub-documents, `policies` and `role_policies`;
- a metadata object.

Each service CRUD, sub-document CRUD and count method is one SQL statement
over that table. `ReadPolicyStore` is one listing. `WritePolicyStore` is
several statements without a transaction: a delete-all, then one insert per
service, stopping at the first failure, so a failed write leaves the services
inserted before it. `Watch` opens a listener on the notification channel
`events` and turns each notification into zero, one or two domain events. The
function-management methods and `StopWatch` only panic.

The model makes the table a map from service name to row (`StoreTypes.Table`).
Each store method is a pure transition or query on that map. `Ok` carries the
new table; `Err` means the table is unchanged.

- **Services** (`ServiceTable`): service create, delete, delete-all, get, list, count and
  names, and the whole-store read and write.
- **Sub-documents** (`SubDocuments`): the id-addressed create, get, list, delete, delete-all
  and count of array elements. These are written once, over a `Column`
  selector.
- **Facades** (`Facades`): binds the generic operations to the `policies` and `role_policies` columns.
- **Counts** (`Counts`): the per-service projection of both array lengths, as written and as
  intended.
- **Change feed** (`ChangeFeed`): covers four things:
  - the classification inside `Watch`;
  - the zero-event fallbacks of `waitForNotification`;
  - `prefixedTable`;
  - a consumer cache, which shows that the events keep a mirror of the table
    up to date.
- **Scenarios** (`Scenarios`): the store's four database tests, restated over the model.

Several inputs are parameters of the model:

- **Fresh ids.** `uuid.NewRandom()` supplies them; the model takes each one
  as a parameter that must not already occur in its array.
- **Row order.** A select with no `ORDER BY` visits rows in an order the
  database chooses. The model takes that order as a `scan` parameter, which
  must enumerate the table's keys. Sums over all services are proved
  independent of it.

## Model

| member | source | states |
|---|---|---|
| ServiceTable.Normalize | pkg/store/postgres/postgresStore.go:35-41 | an empty or nil policies / role-policies slice becomes an empty, non-nil one; a non-empty one and every other field are kept |
| ServiceTable.CreateService | pkg/store/postgres/postgresStore.go:32-73 | succeeds exactly when the name is not yet a key (duplicate key is an error); adds exactly that key, leaves every other row unchanged, and stores absent arrays as empty, never as null |
| ServiceTable.DeleteService | pkg/store/postgres/postgresStore.go:75-92 | succeeds exactly when the name is present; otherwise errors with "unable to delete service; service does not exist"; removes exactly that key and keeps every other row |
| ServiceTable.DeleteServices | pkg/store/postgres/postgresStore.go:94-111 | always succeeds, on an empty table too, and leaves no service |
| StoreTypes.ServiceOf | pkg/store/postgres/postgresStore.go:113-147 | a scanned row becomes a service named after its key, with both arrays present, that CreateService would store as the very same row |
| ServiceTable.GetService | pkg/store/postgres/postgresStore.go:149-155 | a present name yields its row decoded as a service (name, type, both arrays, metadata); an absent one fails with no rows |
| ServiceTable.ListAllServices | pkg/store/postgres/postgresStore.go:157-175 | one service per row in visiting order; each listed service is what GetService returns for its name, and every stored name is listed |
| ServiceTable.GetServiceCount | pkg/store/postgres/postgresStore.go:177-183 | the row count is zero exactly when the table is empty |
| ServiceTable.GetServiceNames | pkg/store/postgres/postgresStore.go:185-200 | the names, without repetition, exactly the table's keys, as many as the service count |
| ServiceTable.ReadPolicyStore | pkg/store/postgres/postgresStore.go:227-239 | returns the listing of every row in visiting order: as many services as the table has rows, named by exactly the table's keys, each one what GetService returns for its name, so type, both arrays and metadata are the stored ones |
| ServiceTable.CreateAll | pkg/store/postgres/postgresStore.go:247-252 | the create loop passes exactly when the names are distinct and none is already stored, and a failure is the duplicate-key error; old rows are kept and every added row is one of the services, normalized; on pass the keys grow by exactly those names; on failure it stopped at some `ss[k]` whose name is already stored, the services before it were distinct and new, and exactly their names were added |
| ServiceTable.WritePolicyStore | pkg/store/postgres/postgresStore.go:241-261 | empties the table and then creates the services; passes exactly when their names are distinct; every remaining row is one of the given services, normalized; on pass the keys are exactly those names and GetService of each returns the normalized service; on failure the table holds exactly the distinct services before the first repeated name, which is among them |
| ServiceTable.CreateServiceThenGet | pkg/store/postgres/postgresStore.go:32-73 | a create of a new name followed by GetService returns the normalized service, and the service count grows by one |
| ServiceTable.DeleteServiceThenGet | pkg/store/postgres/postgresStore.go:75-92 | after deleting a present name, GetService fails with no rows and the count drops by one |
| ServiceTable.DeleteServicesEmpties | pkg/store/postgres/postgresStore.go:94-111 | after DeleteServices the count is 0, every GetService fails and the listing is empty |
| ServiceTable.WriteThenRead | pkg/store/postgres/postgresStore.go:227-261 | writing distinctly named services and reading back yields as many services as were written, each written service (normalized) is read, and nothing else is |
| ServiceTable.ReadBackIsWritten | pkg/store/postgres/postgresStore.go:227-239 | a table holding exactly the normalized services lists exactly those services |
| RowScans.EnumerationSize | pkg/store/postgres/postgresStore.go:157-175 | a repetition-free visit of every key is as long as the key set |
| RowScans.SumIndependentOfScan | pkg/store/postgres/postgresStore.go:379-382 | `SUM` over all rows does not depend on the order the rows are visited in |
| RowScans.SumAfterUpdate | pkg/store/postgres/postgresStore.go:379-382 | replacing one visited row changes the sum by exactly the difference of its lengths |
| RowScans.SumUnaffected | pkg/store/postgres/postgresStore.go:379-382 | a row the scan does not visit does not contribute to the sum |
| SubDocuments.FirstIndex | pkg/store/postgres/postgresStore.go:294-297 | the ordinal of the first element carrying the id (as 0-based index): points at a matching element exactly when one exists, with no match before it |
| SubDocuments.Occurrences | pkg/store/postgres/postgresStore.go:294-297 | how many elements the position subquery matches: zero exactly when no element carries the id |
| SubDocuments.RemoveAt | pkg/store/postgres/postgresStore.go:293-298 | jsonb `-` with an index removes exactly that element: one shorter, order of the others kept, the same multiset minus that element |
| SubDocuments.CreateDoc | pkg/store/postgres/postgresStore.go:267-289 | on a present service, appends the document with the fresh id at the end of the column, changes nothing else and returns the stamped document; on an absent one errors with the create message |
| SubDocuments.DeleteDoc | pkg/store/postgres/postgresStore.go:291-316 | succeeds exactly when the service exists and exactly one element carries the id; absent service, unknown id and repeated id are distinct errors; on success removes the element at ordinal-minus-one, so the id is gone, the column is one shorter and nothing else changes |
| SubDocuments.RemovedOnlyOccurrence | pkg/store/postgres/postgresStore.go:293-298 | removing the only element carrying an id leaves no element carrying it |
| SubDocuments.DeleteAllDocs | pkg/store/postgres/postgresStore.go:318-334 | on a present service the column becomes empty and nothing else changes; on an absent one errors with the delete-all message |
| SubDocuments.GetDoc | pkg/store/postgres/postgresStore.go:336-353 | succeeds exactly when the service exists and some element carries the id, returning such an element; otherwise no rows |
| SubDocuments.ListDocs | pkg/store/postgres/postgresStore.go:355-371 | a present service yields its whole column in stored order, whatever the filter; an absent one fails with no rows |
| SubDocuments.CountDocs | pkg/store/postgres/postgresStore.go:373-387 | a named service yields its column length and an absent name is an error, not 0; the empty name yields the sum over all services, 0 when there are none |
| SubDocuments.CreateThenGet | pkg/store/postgres/postgresStore.go:267-353 | after a create, GetDoc of the returned id finds the created document and the listing ends with it |
| SubDocuments.CreateThenCount | pkg/store/postgres/postgresStore.go:267-387 | a create adds one to the service's count and one to the all-services count |
| SubDocuments.DeleteThenCount | pkg/store/postgres/postgresStore.go:291-387 | a successful delete takes one from the service's count and one from the all-services count |
| SubDocuments.DeleteThenGet | pkg/store/postgres/postgresStore.go:291-353 | after a successful delete, get and delete of the same id fail |
| SubDocuments.DeleteAllThenList | pkg/store/postgres/postgresStore.go:318-371 | after delete-all the listing is the empty array, not an error |
| SubDocuments.UniqueOccursOnce | pkg/store/postgres/postgresStore.go:268 | in an array with unique ids a present id occurs exactly once |
| SubDocuments.DeleteAddressesGetResult | pkg/store/postgres/postgresStore.go:291-353 | with unique ids, delete-by-id succeeds exactly when get-by-id does, and it removes exactly the element get returns |
| SubDocuments.GetFindsEveryListed | pkg/store/postgres/postgresStore.go:336-371 | with unique ids, get of each listed element's id returns that element |
| SubDocuments.CreatePreservesUnique | pkg/store/postgres/postgresStore.go:267-289 | with a fresh id, create keeps ids unique within every array |
| SubDocuments.DeletePreservesUnique | pkg/store/postgres/postgresStore.go:291-316 | delete-by-id keeps ids unique within every array |
| SubDocuments.DeleteAllPreservesUnique | pkg/store/postgres/postgresStore.go:318-334 | delete-all keeps ids unique within every array |
| Facades.CreatePolicy | pkg/store/postgres/postgresStore.go:267-289 | appends the policy, with the fresh id replacing its own, to `policies`; `role_policies`, type, metadata and other services unchanged; absent service errors with "unable to create policy; an unknown error occurred" |
| Facades.DeletePolicy | pkg/store/postgres/postgresStore.go:291-316 | succeeds exactly when the service exists and the id occurs once in `policies`; an absent service errors with the delete message, an unknown id errors, and a repeated id is the several-rows error; success removes exactly one element carrying the id at its index, keeping order, `role_policies` and other services |
| Facades.DeletePolicies | pkg/store/postgres/postgresStore.go:318-334 | `policies` becomes empty, `role_policies` and other services unchanged; absent service errors with "unable to delete policies; an unknown error occurred" |
| Facades.GetPolicy | pkg/store/postgres/postgresStore.go:336-353 | succeeds exactly when the service has a policy with the id, returning one |
| Facades.ListAllPolicies | pkg/store/postgres/postgresStore.go:355-371 | the whole `policies` array of a present service; absent service errors |
| Facades.GetPolicyCount | pkg/store/postgres/postgresStore.go:373-387 | a named service's `policies` length, error when absent; the empty name sums over all services |
| Facades.CreateRolePolicy | pkg/store/postgres/postgresStore.go:389-411 | appends the role policy with the fresh id to `role_policies`; `policies`, type, metadata and other services unchanged; absent service errors with "unable to create role policy; an unknown error occurred" |
| Facades.DeleteRolePolicy | pkg/store/postgres/postgresStore.go:413-438 | succeeds exactly when the service exists and the id occurs once in `role_policies`; an absent service errors with the delete message, an unknown id errors, and a repeated id is the several-rows error; success removes exactly one element carrying the id at its index, keeping order, `policies` and other services |
| Facades.DeleteRolePolicies | pkg/store/postgres/postgresStore.go:440-456 | `role_policies` becomes empty, `policies` and other services unchanged; absent service errors with "unable to delete role policies; an unknown error occurred" |
| Facades.GetRolePolicy | pkg/store/postgres/postgresStore.go:458-475 | succeeds exactly when the service has a role policy with the id, returning one |
| Facades.ListAllRolePolicies | pkg/store/postgres/postgresStore.go:477-493 | the whole `role_policies` array of a present service; absent service errors |
| Facades.GetRolePolicyCount | pkg/store/postgres/postgresStore.go:495-508 | a named service's `role_policies` length, error when absent; the empty name sums over all services |
| Counts.SelectCounts | pkg/store/postgres/postgresStore.go:203-224 | a statement naming an undefined length function fails whatever the table holds; with the defined one it maps every service, and only those, to its two array lengths |
| Counts.GetPolicyAndRolePolicyCountsAsWritten | pkg/store/postgres/postgresStore.go:202-225 | the statement as written fails with an undefined `jsonb_aray_length` |
| Counts.GetPolicyAndRolePolicyCounts | pkg/store/postgres/postgresStore.go:202-225 | the intended projection: exactly the services, each mapped to (policies length, role-policies length) |
| Counts.CountsAgreeWithPerServiceCounts | pkg/store/postgres/postgresStore.go:202-225 | the projection agrees with GetPolicyCount and GetRolePolicyCount of each named service |
| Counts.AsWrittenFailsOnOnePolicy | pkg/store/postgres/postgresStore.go:203 | on one service holding one policy the statement as written fails, while the tests expect the pair (1, 0) |
| ChangeFeed.PrefixedTable | pkg/store/postgres/postgresStore.go:662-664 | the table name is the prefix followed by the base name |
| ChangeFeed.WatchedTableNeedsDefaultPrefix | pkg/store/postgres/postgresStore.go:596 | the services table matches the literal `Watch` compares against exactly when the prefix is the default `speedle_` |
| ChangeFeed.WaitForNotification | pkg/store/postgres/postgresStore.go:541-563 | a decoded payload is returned as is; a decoding failure and the idle timeout both give the zero event |
| ChangeFeed.Translate | pkg/store/postgres/postgresStore.go:594-640 | events exist exactly for the services table with UPDATE, DELETE or CREATE; UPDATE gives a delete of the name followed by an add of the service, DELETE one delete, CREATE one add; deletes carry exactly the service's name, adds the service |
| ChangeFeed.Stream | pkg/store/postgres/postgresStore.go:594-643 | at most two events per notification |
| ChangeFeed.FallbacksEmitNothing | pkg/store/postgres/postgresStore.go:550-560 | a payload that fails to decode, or a timeout, emits no event |
| ChangeFeed.StreamAppend | pkg/store/postgres/postgresStore.go:594-643 | the events of consecutive notifications are emitted in order, one batch after the other |
| ChangeFeed.StreamSkipsFallback | pkg/store/postgres/postgresStore.go:594-643 | a fallback notification anywhere in the stream changes nothing that is emitted |
| ChangeFeed.TranslateHasEffect | pkg/store/postgres/postgresStore.go:596-640 | applying the emitted events to any cache keyed by name has the intended effect: CREATE and UPDATE leave the cache holding the event's service, DELETE removes its name, anything else leaves the cache alone |
| ChangeFeed.ApplyAllAppend | pkg/store/postgres/postgresStore.go:594-643 | a consumer applying two batches of events in turn applies their concatenation |
| ChangeFeed.StreamHasEffect | pkg/store/postgres/postgresStore.go:594-643 | a consumer applying the whole event stream of a sequence of notifications ends with the cache that the intended effects of their decoded raw events give, taken in order, timeouts and undecodable payloads included |
| ChangeFeed.Mirror | pkg/store/postgres/postgresStore.go:149-155 | a consumer's cache of the table holds exactly the stored names, and looking a name up in it answers what GetService answers: the row read as a service when present, the no-rows error when absent |
| ChangeFeed.MirrorFollowsCreate | pkg/store/postgres/postgresStore.go:628-639 | the events of a CREATE carrying the new row turn a mirror of the old table into a mirror of the new one |
| ChangeFeed.MirrorFollowsUpdate | pkg/store/postgres/postgresStore.go:597-616 | the events of an UPDATE carrying the changed row turn a mirror of the old table into a mirror of the new one |
| ChangeFeed.MirrorFollowsDelete | pkg/store/postgres/postgresStore.go:617-627 | the events of a DELETE carrying the deleted row turn a mirror of the old table into a mirror of the table without it |
| Scenarios.CreateMany | pkg/store/postgres/postgresStore_test.go:225-230 | creating documents one after another under an existing service appends them, each with its own id, in order, and changes nothing else |
| Scenarios.TenApps | pkg/store/postgres/postgresStore_test.go:44-48 | ten services with pairwise distinct names `app0` to `app9` |
| Scenarios.WriteReadPolicyStore | pkg/store/postgres/postgresStore_test.go:35-66 | writing the ten services passes and reading the store back yields ten services, whatever was stored before |
| Scenarios.ManagePolicies | pkg/store/postgres/postgresStore_test.go:68-136 | after a fresh service and one policy: get by the returned id finds it, the listing is exactly it, the counts are (1, 0), get and delete of an unknown id fail and delete of the real id succeeds |
| Scenarios.ManageRolePolicies | pkg/store/postgres/postgresStore_test.go:138-197 | the same for one role policy, with counts (0, 1) |
| Scenarios.Populate | pkg/store/postgres/postgresStore_test.go:204-250 | creating a service and then its policies and role policies leaves exactly that row, with both arrays in creation order |
| Scenarios.CheckItemsCountFirstService | pkg/store/postgres/postgresStore_test.go:199-258 | from an emptied store: one service, then a policy count of 3, then a role-policy count of 2 |
| Scenarios.CheckItemsCount | pkg/store/postgres/postgresStore_test.go:260-336 | adding the second service makes the count 2; service2's counts are 3 and 2, the all-services counts 6 and 4, and the projection maps both services to (3, 2) |
| Scenarios.TwoServiceCounts | pkg/store/postgres/postgresStore_test.go:283-333 | the counts any two-service table with three policies and two role policies per service reports, in any row order |
| Scenarios.DeleteMiddlePolicy | pkg/store/postgres/postgresStore.go:291-316 | deleting the middle of three policies leaves the first and third in order, and the deleted id is no longer found |

## Left out

- JSON encoding: `json.Marshal`/`Unmarshal` and the jsonb byte format are not modelled. A sub-document is an id plus an uninterpreted payload that round-trips verbatim. The encoding errors the store returns are therefore absent.
- Database and driver failures: `Exec`, `Query`, `Scan` and `RowsAffected` errors other than the ones named in the contracts are not modelled. This covers connection loss and encoding errors.
- storeBuilder.go is not part of this model. It holds connection setup, pool sizing, configuration parsing and registration. Only its default table prefix `speedle_` appears, in `ChangeFeed.DefaultTablePrefix`.
- The listener machinery of `Watch`: `pq.Listener`, the goroutine, the blocking channel sends, the 90-second timer and `Ping` are concurrency and I/O. A notification is either a payload (decoded or not) or a timeout, and a stream of them is a sequence.
- Event ids: domain events carry no `ID`, because the source fills it from the wall clock (`time.Now().Unix()`).
- The code after `return` in `Watch` is unreachable and not modelled.
- Function management (`CreateFunction` … `GetFunctionCount`) and `StopWatch` are left out, because they only panic.
- ServiceTable.WritePolicyStore: models only a policy store without functions. Its functions loop calls the panicking `CreateFunction`, and its check is inverted (`err == nil`).
- ServiceTable.ReadPolicyStore: the functions part of the result is always nil and is not represented.
- ServiceTable.GetServiceNames: does not model the ignored `rows.Scan` errors; it states the names of a table whose rows all scan.
- The race between the position subquery and the update in delete-by-id is not modelled. The model is sequential, so both see the same state.
- SubDocuments.DeleteDoc: for an id that no element carries, the model states the observable outcome only: an error, with the table unchanged. The SQL of the method does not by itself explain where that error comes from. The model claims no mechanism; `UnknownElement` names the outcome, not a cause.
- Facades.CreatePolicy: the fresh id is a parameter that must not already occur in the array, standing in for `uuid.NewRandom()`. The store's overwrite of the caller's `ID` field is modelled only through the returned document, which is the caller's document with the fresh id. The same holds for `CreateRolePolicy`.
- ServiceTable.CreateService: the store also rewrites the caller's empty slices in place. The model returns the normalized record through `Normalize`, not by mutating its argument.
- Counts are unbounded naturals; the source's `int64` cannot overflow at any size the model describes.
- The order in which the database visits rows is a parameter (`scan`). Listing order is therefore stated relative to that order, not fixed.
- Scenarios.CheckItemsCount: reads two policy counts after role policies are added to `service2`, where the test reads them before: the count of `service2` and the all-services count. Role policies do not touch the `policies` column, so both values are the same.

## Findings

| source | as written | input that shows it | evidently intended | confidence | as-written member | corrected member |
|---|---|---|---|---|---|---|
| pkg/store/postgres/postgresStore.go:203 | the count query calls `jsonb_aray_length(policies)`, a function postgres does not define, so the statement is rejected for every table | one service `service1` holding one policy: the tests read counts (1, 0), the statement fails | `jsonb_array_length(policies)`, as used for `role_policies` in the same statement and in `GetPolicyCount` | high; not executed | Counts.AsWrittenFailsOnOnePolicy | Counts.GetPolicyAndRolePolicyCounts |

=== FILE: change_feed.dfy ===
/**
 The change feed of `Watch`: a notification is decoded into a raw change
 event (or the zero event when decoding fails or the 90-second wait expires),
 and the event is classified by table and action into zero, one or two domain
 events. The listener, the goroutine, the channel and the wall-clock event
 ids are not modelled; a stream of notifications becomes the concatenation of
 their translations, in order.
 */
module ChangeFeed {
  import opened StoreTypes
  import ServiceTable

  /** The table name `Watch` compares against, written out as a literal. */
  const ServicesTable: string := "speedle_services"

  /** The table prefix the store is configured with unless told otherwise. */
  const DefaultTablePrefix: string := "speedle_"

  /** The name of a table of the store: the configured prefix followed by the base name. */
  function PrefixedTable(prefix: string, name: string): (r: string)
    ensures |r| == |prefix| + |name|
    ensures r[..|prefix|] == prefix && r[|prefix|..] == name
  {
    prefix + name
  }

  /**
   `Watch` sees the services table only under the default prefix: with any
   other prefix the table the store writes is not the one `Watch` matches.
   */
  lemma WatchedTableNeedsDefaultPrefix(prefix: string)
    ensures PrefixedTable(prefix, "services") == ServicesTable <==> prefix == DefaultTablePrefix
  {
    var r := PrefixedTable(prefix, "services");
    if r == ServicesTable {
      assert |prefix| == |DefaultTablePrefix|;
      assert prefix == r[..|prefix|] == ServicesTable[..8];
    }
  }

  /** The raw notification payload: table, action and the row as a service. */
  datatype ChangeEvent = ChangeEvent(table: string, action: string, service: Service)

  /** Go's zero `ChangeEvent`: empty table and action, zero service. */
  const ZeroEvent: ChangeEvent := ChangeEvent("", "", Service("", "", None, None, map[]))

  /** What one wait on the listener yields: a payload (decoded or not) or the idle timeout. */
  datatype Notification = Received(decoded: Option<ChangeEvent>) | TimedOut

  /** Decoding failures and timeouts both fall back to the zero event. */
  function WaitForNotification(n: Notification): (ev: ChangeEvent)
    ensures n == TimedOut ==> ev == ZeroEvent
    ensures n == Received(None) ==> ev == ZeroEvent
    ensures n.Received? && n.decoded.Some? ==> ev == n.decoded.value
  {
    match n
    case TimedOut => ZeroEvent
    case Received(None) => ZeroEvent
    case Received(Some(ev)) => ev
  }

  /** A domain event; deletions carry a list of names, additions the whole service. */
  datatype StoreChangeEvent = ServiceDelete(names: seq<string>) | ServiceAdd(service: Service)

  /** The classification of one raw event into domain events, in emission order. */
  function Translate(ev: ChangeEvent): (r: seq<StoreChangeEvent>)
    ensures |r| <= 2
    ensures r != [] <==> ev.table == ServicesTable && ev.action in {"UPDATE", "DELETE", "CREATE"}
    ensures forall i :: 0 <= i < |r| && r[i].ServiceDelete? ==> r[i].names == [ev.service.name]
    ensures forall i :: 0 <= i < |r| && r[i].ServiceAdd? ==> r[i].service == ev.service
    ensures ev.table == ServicesTable && ev.action == "UPDATE" ==> |r| == 2 && r[0].ServiceDelete? && r[1].ServiceAdd?
    ensures ev.table == ServicesTable && ev.action == "DELETE" ==> |r| == 1 && r[0].ServiceDelete?
    ensures ev.table == ServicesTable && ev.action == "CREATE" ==> |r| == 1 && r[0].ServiceAdd?
  {
    if ev.table == ServicesTable then
      if ev.action == "UPDATE" then [ServiceDelete([ev.service.name]), ServiceAdd(ev.service)]
      else if ev.action == "DELETE" then [ServiceDelete([ev.service.name])]
      else if ev.action == "CREATE" then [ServiceAdd(ev.service)]
      else []
    else []
  }

  /** The domain events produced for a sequence of notifications, in order. */
  function Stream(ns: seq<Notification>): (r: seq<StoreChangeEvent>)
    ensures |r| <= 2 * |ns|
    decreases |ns|
  {
    if ns == [] then [] else Translate(WaitForNotification(ns[0])) + Stream(ns[1..])
  }

  /** A notification that decodes to nothing or times out emits no event. */
  lemma FallbacksEmitNothing(n: Notification)
    requires n == TimedOut || n == Received(None)
    ensures Translate(WaitForNotification(n)) == []
  {
  }

  /** The events of consecutive notifications are emitted one after the other, in order. */
  lemma {:induction false} StreamAppend(a: seq<Notification>, b: seq<Notification>)
    ensures Stream(a + b) == Stream(a) + Stream(b)
    decreases |a|
  {
    if a != [] {
      assert (a + b)[1..] == a[1..] + b;
      StreamAppend(a[1..], b);
    } else {
      assert a + b == b;
    }
  }

  /** An undecodable payload or a timeout does not stop or alter the stream of later events. */
  lemma StreamSkipsFallback(a: seq<Notification>, n: Notification, b: seq<Notification>)
    requires n == TimedOut || n == Received(None)
    ensures Stream(a + [n] + b) == Stream(a + b)
  {
    StreamAppend(a + [n], b);
    StreamAppend(a, [n]);
    StreamAppend(a, b);
    assert [n][1..] == [];
    assert Stream([n]) == [];
    assert Stream(a + [n]) == Stream(a);
  }

  // ---------------------------------------------------------------------------
  // A consumer that keeps a cache of services from the domain events

  function ApplyEvent(cache: map<string, Service>, e: StoreChangeEvent): map<string, Service>
  {
    match e
    case ServiceDelete(names) => cache - set n | n in names
    case ServiceAdd(s) => cache[s.name := s]
  }

  function ApplyAll(cache: map<string, Service>, es: seq<StoreChangeEvent>): map<string, Service>
    decreases |es|
  {
    if es == [] then cache else ApplyAll(ApplyEvent(cache, es[0]), es[1..])
  }

  /**
   What a raw event should do to a consumer's cache, stated independently of
   the domain events: creation and update leave the cache holding the event's
   service, deletion removes its name, and anything else leaves it alone.
   */
  function Effect(cache: map<string, Service>, ev: ChangeEvent): map<string, Service>
  {
    if ev.table != ServicesTable then cache
    else if ev.action == "UPDATE" || ev.action == "CREATE" then cache[ev.service.name := ev.service]
    else if ev.action == "DELETE" then cache - {ev.service.name}
    else cache
  }

  /** Applying the translated events has exactly the intended effect on any cache. */
  lemma TranslateHasEffect(cache: map<string, Service>, ev: ChangeEvent)
    ensures ApplyAll(cache, Translate(ev)) == Effect(cache, ev)
  {
    var name := ev.service.name;
    if ev.table == ServicesTable && ev.action in {"UPDATE", "DELETE"} {
      assert (set n | n in [name]) == {name};
    }
    if ev.table == ServicesTable && ev.action == "UPDATE" {
      var es := Translate(ev);
      var removed := cache - {name};
      assert ApplyEvent(cache, es[0]) == removed;
      assert ApplyAll(cache, es) == ApplyAll(removed, es[1..]);
      assert ApplyAll(removed, es[1..]) == ApplyAll(removed[name := ev.service], []);
      assert removed[name := ev.service] == cache[name := ev.service];
    }
  }

  /** Applying a concatenation of event sequences applies them one after the other. */
  lemma {:induction false} ApplyAllAppend(cache: map<string, Service>, a: seq<StoreChangeEvent>, b: seq<StoreChangeEvent>)
    ensures ApplyAll(cache, a + b) == ApplyAll(ApplyAll(cache, a), b)
    decreases |a|
  {
    if a != [] {
      assert (a + b)[1..] == a[1..] + b;
      ApplyAllAppend(ApplyEvent(cache, a[0]), a[1..], b);
    } else {
      assert a + b == b;
    }
  }

  /** The intended effects of the events the notifications decode to, one after the other. */
  function EffectAll(cache: map<string, Service>, ns: seq<Notification>): map<string, Service>
    decreases |ns|
  {
    if ns == [] then cache else EffectAll(Effect(cache, WaitForNotification(ns[0])), ns[1..])
  }

  /**
   A consumer applying the whole stream of domain events ends with the cache
   the intended effects of the notifications' raw events give.
   */
  lemma {:induction false} StreamHasEffect(cache: map<string, Service>, ns: seq<Notification>)
    ensures ApplyAll(cache, Stream(ns)) == EffectAll(cache, ns)
    decreases |ns|
  {
    if ns != [] {
      var ev := WaitForNotification(ns[0]);
      ApplyAllAppend(cache, Translate(ev), Stream(ns[1..]));
      TranslateHasEffect(cache, ev);
      StreamHasEffect(Effect(cache, ev), ns[1..]);
    }
  }

  // ---------------------------------------------------------------------------
  // The cache follows the table

  /**
   The services of a table, keyed by name, as a consumer's cache holds them:
   looking a name up in the cache answers what GetService answers on the table.
   */
  function Mirror(t: Table): (m: map<string, Service>)
    ensures m.Keys == t.Keys
    ensures forall n :: ServiceTable.GetService(t, n) == (if n in m then Ok(m[n]) else Err(NoRows))
  {
    map n | n in t :: ServiceOf(n, t[n])
  }

  /** A CREATE notification carrying the new row brings a mirror of the old table up to date. */
  lemma MirrorFollowsCreate(t: Table, s: Service)
    requires ServiceTable.CreateService(t, s).Ok?
    ensures var t' := ServiceTable.CreateService(t, s).value;
      ApplyAll(Mirror(t), Translate(ChangeEvent(ServicesTable, "CREATE", ServiceOf(s.name, t'[s.name])))) == Mirror(t')
  {
    var t' := ServiceTable.CreateService(t, s).value;
    var ev := ChangeEvent(ServicesTable, "CREATE", ServiceOf(s.name, t'[s.name]));
    TranslateHasEffect(Mirror(t), ev);
    assert Effect(Mirror(t), ev) == Mirror(t');
  }

  /** An UPDATE notification carrying the changed row brings the mirror up to date. */
  lemma MirrorFollowsUpdate(t: Table, name: string, row: Row)
    requires name in t
    ensures ApplyAll(Mirror(t), Translate(ChangeEvent(ServicesTable, "UPDATE", ServiceOf(name, row)))) == Mirror(t[name := row])
  {
    var ev := ChangeEvent(ServicesTable, "UPDATE", ServiceOf(name, row));
    TranslateHasEffect(Mirror(t), ev);
    assert Effect(Mirror(t), ev) == Mirror(t[name := row]);
  }

  /** A DELETE notification carrying the deleted row brings the mirror up to date. */
  lemma MirrorFollowsDelete(t: Table, name: string)
    requires ServiceTable.DeleteService(t, name).Ok?
    ensures ApplyAll(Mirror(t), Translate(ChangeEvent(ServicesTable, "DELETE", ServiceOf(name, t[name]))))
         == Mirror(ServiceTable.DeleteService(t, name).value)
  {
    var ev := ChangeEvent(ServicesTable, "DELETE", ServiceOf(name, t[name]));
    TranslateHasEffect(Mirror(t), ev);
    assert Effect(Mirror(t), ev) == Mirror(ServiceTable.DeleteService(t, name).value);
  }
}

=== FILE: counts.dfy ===
/**
 The per-service projection of array lengths, `GetPolicyAndRolePolicyCounts`.
 The statement the store sends names `jsonb_aray_length`, a function the
 database does not define, so as written the query is rejected whatever the
 table holds; the model keeps that statement beside the intended one.
 */
module Counts {
  import opened StoreTypes
  import opened RowScans
  import opened SubDocuments

  datatype PolicyAndRolePolicyCount = PolicyAndRolePolicyCount(policyCount: nat, rolePolicyCount: nat)

  /** The jsonb length function the database defines. */
  const ArrayLengthFunction: string := "jsonb_array_length"

  /** The function name the store's statement actually uses for the policies column. */
  const MisspelledLengthFunction: string := "jsonb_aray_length"

  /**
   `SELECT name, policyFn(policies), rolePolicyFn(role_policies)` over every
   row. A call of an undefined function is rejected when the statement is
   planned, before any row is read, so the error does not depend on the table.
   */
  function SelectCounts(t: Table, policyFn: string, rolePolicyFn: string): (r: Result<map<string, PolicyAndRolePolicyCount>>)
    ensures policyFn != ArrayLengthFunction ==> r == Err(UndefinedFunction(policyFn))
    ensures policyFn == ArrayLengthFunction && rolePolicyFn != ArrayLengthFunction ==> r == Err(UndefinedFunction(rolePolicyFn))
    ensures r.Ok? <==> policyFn == ArrayLengthFunction && rolePolicyFn == ArrayLengthFunction
    ensures r.Ok? ==> r.value.Keys == t.Keys
    ensures r.Ok? ==> forall n :: n in t ==> r.value[n].policyCount == |t[n].policies|
    ensures r.Ok? ==> forall n :: n in t ==> r.value[n].rolePolicyCount == |t[n].rolePolicies|
  {
    if policyFn != ArrayLengthFunction then Err(UndefinedFunction(policyFn))
    else if rolePolicyFn != ArrayLengthFunction then Err(UndefinedFunction(rolePolicyFn))
    else Ok(map n | n in t :: PolicyAndRolePolicyCount(|t[n].policies|, |t[n].rolePolicies|))
  }

  /** The statement as the store writes it: always rejected. */
  function GetPolicyAndRolePolicyCountsAsWritten(t: Table): (r: Result<map<string, PolicyAndRolePolicyCount>>)
    ensures r == Err(UndefinedFunction("jsonb_aray_length"))
  {
    SelectCounts(t, MisspelledLengthFunction, ArrayLengthFunction)
  }

  /** The intended statement: one pair of lengths per existing service. */
  function GetPolicyAndRolePolicyCounts(t: Table): (r: Result<map<string, PolicyAndRolePolicyCount>>)
    ensures r.Ok? && r.value.Keys == t.Keys
    ensures forall n :: n in t ==> r.value[n] == PolicyAndRolePolicyCount(|t[n].policies|, |t[n].rolePolicies|)
  {
    SelectCounts(t, ArrayLengthFunction, ArrayLengthFunction)
  }

  /**
   The projection agrees with the per-service counts of each column (for every
   service whose name is not empty: the empty name asks for the total).
   */
  lemma CountsAgreeWithPerServiceCounts(t: Table, scan: seq<string>, name: string)
    requires Enumerates(scan, t.Keys) && name in t && name != ""
    ensures CountDocs(t, name, PolicyColumn, scan) == Ok(GetPolicyAndRolePolicyCounts(t).value[name].policyCount)
    ensures CountDocs(t, name, RolePolicyColumn, scan) == Ok(GetPolicyAndRolePolicyCounts(t).value[name].rolePolicyCount)
  {
  }

  /**
   The discrepancy on a concrete table: one service holding one policy. The
   tests read a policy count of 1 and a role-policy count of 0 for it; the
   statement as written returns an error instead.
   */
  lemma AsWrittenFailsOnOnePolicy(p: Doc)
    ensures var t := map["service1" := Row("application", [p], [], map[])];
      && GetPolicyAndRolePolicyCountsAsWritten(t).Err?
      && GetPolicyAndRolePolicyCounts(t).value["service1"] == PolicyAndRolePolicyCount(1, 0)
  {
  }
}

=== FILE: facades.dfy ===
/**
 The store's policy and role-policy methods: the generic sub-document
 operations bound to the `policies` and the `role_policies` column. Each
 contract names the moved column on the concrete row fields and states the
 frame, everything else of the table, with `OnlyColumnChanged`.
 */
module Facades {
  import opened StoreTypes
  import opened RowScans
  import opened SubDocuments

  // ---------------------------------------------------------------------------
  // Policies

  function CreatePolicy(t: Table, serviceName: string, policy: Doc, freshId: string): (r: Result<(Table, Doc)>)
    requires serviceName in t ==> freshId !in Ids(t[serviceName].policies)
    ensures r.Ok? <==> serviceName in t
    ensures r.Ok? ==> serviceName in r.value.0
    ensures r.Err? ==> r.error == RowsUnaffected("unable to create policy; an unknown error occurred")
    ensures r.Ok? ==> r.value.1 == policy.(id := freshId)
    ensures r.Ok? ==> r.value.0[serviceName].policies == t[serviceName].policies + [r.value.1]
    ensures r.Ok? ==> r.value.0[serviceName].rolePolicies == t[serviceName].rolePolicies
    ensures r.Ok? ==> OnlyColumnChanged(t, r.value.0, serviceName, PolicyColumn)
  {
    CreateDoc(t, serviceName, PolicyColumn, policy, freshId)
  }

  function DeletePolicy(t: Table, serviceName: string, id: string): (r: Result<Table>)
    ensures r.Ok? ==> serviceName in t && serviceName in r.value
    ensures serviceName !in t ==> r == Err(RowsUnaffected("unable to delete policy; an unknown error occurred"))
    ensures serviceName in t && id !in Ids(t[serviceName].policies) ==> r == Err(UnknownElement)
    ensures r.Ok? <==> serviceName in t && Occurrences(t[serviceName].policies, id) == 1
    ensures serviceName in t && Occurrences(t[serviceName].policies, id) > 1 ==> r == Err(MultipleMatches)
    ensures r.Ok? ==> |r.value[serviceName].policies| == |t[serviceName].policies| - 1
    ensures r.Ok? ==> id !in Ids(r.value[serviceName].policies)
    ensures r.Ok? ==> r.value[serviceName].rolePolicies == t[serviceName].rolePolicies
    ensures r.Ok? ==> exists p :: 0 <= p < |t[serviceName].policies| && t[serviceName].policies[p].id == id
                                  && r.value[serviceName].policies == RemoveAt(t[serviceName].policies, p)
    ensures r.Ok? ==> OnlyColumnChanged(t, r.value, serviceName, PolicyColumn)
  {
    DeleteDoc(t, serviceName, PolicyColumn, id)
  }

  function DeletePolicies(t: Table, serviceName: string): (r: Result<Table>)
    ensures r.Ok? <==> serviceName in t
    ensures r.Ok? ==> serviceName in r.value
    ensures r.Err? ==> r.error == RowsUnaffected("unable to delete policies; an unknown error occurred")
    ensures r.Ok? ==> r.value[serviceName].policies == []
    ensures r.Ok? ==> r.value[serviceName].rolePolicies == t[serviceName].rolePolicies
    ensures r.Ok? ==> OnlyColumnChanged(t, r.value, serviceName, PolicyColumn)
  {
    DeleteAllDocs(t, serviceName, PolicyColumn)
  }

  function GetPolicy(t: Table, serviceName: string, id: string): (r: Result<Doc>)
    ensures r.Ok? <==> serviceName in t && id in Ids(t[serviceName].policies)
    ensures r.Ok? ==> r.value in t[serviceName].policies && r.value.id == id
  {
    GetDoc(t, serviceName, PolicyColumn, id)
  }

  function ListAllPolicies(t: Table, serviceName: string, filter: string): (r: Result<seq<Doc>>)
    ensures r.Ok? <==> serviceName in t
    ensures r.Ok? ==> r.value == t[serviceName].policies
  {
    ListDocs(t, serviceName, PolicyColumn, filter)
  }

  function GetPolicyCount(t: Table, serviceName: string, scan: seq<string>): (r: Result<nat>)
    requires Enumerates(scan, t.Keys)
    ensures serviceName != "" ==> (r.Ok? <==> serviceName in t)
    ensures serviceName != "" && r.Ok? ==> r.value == |t[serviceName].policies|
    ensures serviceName == "" ==> r == Ok(SumLengths(t, PolicyColumn, scan))
  {
    CountDocs(t, serviceName, PolicyColumn, scan)
  }

  // ---------------------------------------------------------------------------
  // Role policies

  function CreateRolePolicy(t: Table, serviceName: string, policy: Doc, freshId: string): (r: Result<(Table, Doc)>)
    requires serviceName in t ==> freshId !in Ids(t[serviceName].rolePolicies)
    ensures r.Ok? <==> serviceName in t
    ensures r.Ok? ==> serviceName in r.value.0
    ensures r.Err? ==> r.error == RowsUnaffected("unable to create role policy; an unknown error occurred")
    ensures r.Ok? ==> r.value.1 == policy.(id := freshId)
    ensures r.Ok? ==> r.value.0[serviceName].rolePolicies == t[serviceName].rolePolicies + [r.value.1]
    ensures r.Ok? ==> r.value.0[serviceName].policies == t[serviceName].policies
    ensures r.Ok? ==> OnlyColumnChanged(t, r.value.0, serviceName, RolePolicyColumn)
  {
    CreateDoc(t, serviceName, RolePolicyColumn, policy, freshId)
  }

  function DeleteRolePolicy(t: Table, serviceName: string, id: string): (r: Result<Table>)
    ensures r.Ok? ==> serviceName in t && serviceName in r.value
    ensures serviceName !in t ==> r == Err(RowsUnaffected("unable to delete role policy; an unknown error occurred"))
    ensures serviceName in t && id !in Ids(t[serviceName].rolePolicies) ==> r == Err(UnknownElement)
    ensures r.Ok? <==> serviceName in t && Occurrences(t[serviceName].rolePolicies, id) == 1
    ensures serviceName in t && Occurrences(t[serviceName].rolePolicies, id) > 1 ==> r == Err(MultipleMatches)
    ensures r.Ok? ==> |r.value[serviceName].rolePolicies| == |t[serviceName].rolePolicies| - 1
    ensures r.Ok? ==> id !in Ids(r.value[serviceName].rolePolicies)
    ensures r.Ok? ==> r.value[serviceName].policies == t[serviceName].policies
    ensures r.Ok? ==> exists p :: 0 <= p < |t[serviceName].rolePolicies| && t[serviceName].rolePolicies[p].id == id
                                  && r.value[serviceName].rolePolicies == RemoveAt(t[serviceName].rolePolicies, p)
    ensures r.Ok? ==> OnlyColumnChanged(t, r.value, serviceName, RolePolicyColumn)
  {
    DeleteDoc(t, serviceName, RolePolicyColumn, id)
  }

  function DeleteRolePolicies(t: Table, serviceName: string): (r: Result<Table>)
    ensures r.Ok? <==> serviceName in t
    ensures r.Ok? ==> serviceName in r.value
    ensures r.Err? ==> r.error == RowsUnaffected("unable to delete role policies; an unknown error occurred")
    ensures r.Ok? ==> r.value[serviceName].rolePolicies == []
    ensures r.Ok? ==> r.value[serviceName].policies == t[serviceName].policies
    ensures r.Ok? ==> OnlyColumnChanged(t, r.value, serviceName, RolePolicyColumn)
  {
    DeleteAllDocs(t, serviceName, RolePolicyColumn)
  }

  function GetRolePolicy(t: Table, serviceName: string, id: string): (r: Result<Doc>)
    ensures r.Ok? <==> serviceName in t && id in Ids(t[serviceName].rolePolicies)
    ensures r.Ok? ==> r.value in t[serviceName].rolePolicies && r.value.id == id
  {
    GetDoc(t, serviceName, RolePolicyColumn, id)
  }

  function ListAllRolePolicies(t: Table, serviceName: string, filter: string): (r: Result<seq<Doc>>)
    ensures r.Ok? <==> serviceName in t
    ensures r.Ok? ==> r.value == t[serviceName].rolePolicies
  {
    ListDocs(t, serviceName, RolePolicyColumn, filter)
  }

  function GetRolePolicyCount(t: Table, serviceName: string, scan: seq<string>): (r: Result<nat>)
    requires Enumerates(scan, t.Keys)
    ensures serviceName != "" ==> (r.Ok? <==> serviceName in t)
    ensures serviceName != "" && r.Ok? ==> r.value == |t[serviceName].rolePolicies|
    ensures serviceName == "" ==> r == Ok(SumLengths(t, RolePolicyColumn, scan))
  {
    CountDocs(t, serviceName, RolePolicyColumn, scan)
  }
}

=== FILE: row_scans.dfy ===
/**
 Statements without ORDER BY visit the rows of the services table in an order
 the database chooses. The model takes that order as a parameter `scan`, a
 sequence listing every key exactly once, and proves that the aggregate
 results the store exposes do not depend on it.
 */
module RowScans {
  import opened StoreTypes

  predicate NoDup(s: seq<string>)
  {
    forall i, j :: 0 <= i < j < |s| ==> s[i] != s[j]
  }

  /** `scan` lists each element of `keys` exactly once and nothing else. */
  predicate Enumerates(scan: seq<string>, keys: set<string>)
  {
    && NoDup(scan)
    && (forall k :: k in scan ==> k in keys)
    && (forall k :: k in keys ==> k in scan)
  }

  /** `s` without its element at index `i`. */
  function Without<T>(s: seq<T>, i: nat): (r: seq<T>)
    requires i < |s|
    ensures |r| == |s| - 1
    ensures forall j :: 0 <= j < i ==> r[j] == s[j]
    ensures forall j :: i <= j < |r| ==> r[j] == s[j + 1]
  {
    s[..i] + s[i + 1..]
  }

  lemma WithoutEnumerates(s: seq<string>, keys: set<string>, i: nat)
    requires i < |s| && Enumerates(s, keys)
    ensures Enumerates(Without(s, i), keys - {s[i]})
  {
    var r := Without(s, i);
    forall k
      ensures k in r <==> k in keys - {s[i]}
    {
      if k in r {
        var j :| 0 <= j < |r| && r[j] == k;
        if j < i {
          assert r[j] == s[j];
        } else {
          assert r[j] == s[j + 1];
        }
      }
      if k in keys - {s[i]} {
        var j :| 0 <= j < |s| && s[j] == k;
        if j < i {
          assert r[j] == k;
        } else {
          assert r[j - 1] == k;
        }
      }
    }
  }

  /** An enumeration is exactly as long as the set it enumerates. */
  lemma {:induction false} EnumerationSize(scan: seq<string>, keys: set<string>)
    requires Enumerates(scan, keys)
    ensures |scan| == |keys|
  {
    if scan != [] {
      WithoutEnumerates(scan, keys, 0);
      EnumerationSize(Without(scan, 0), keys - {scan[0]});
    } else {
      assert keys == {} by {
        forall k | k in keys ensures false {
        }
      }
    }
  }

  /**
   The sum of the lengths of column `c` over the rows `scan` visits:
   `COALESCE(SUM(jsonb_array_length(c)), 0)`, which is 0 when no row is visited.
   */
  function SumLengths(t: Table, c: Column, scan: seq<string>): nat
    requires forall k :: k in scan ==> k in t
    decreases |scan|
  {
    if scan == [] then 0 else |Cells(t[scan[0]], c)| + SumLengths(t, c, scan[1..])
  }

  /** Taking one visited row out of the sum subtracts exactly its length. */
  lemma {:induction false} SumWithout(t: Table, c: Column, scan: seq<string>, i: nat)
    requires forall k :: k in scan ==> k in t
    requires i < |scan|
    ensures forall k :: k in Without(scan, i) ==> k in t
    ensures SumLengths(t, c, scan) == |Cells(t[scan[i]], c)| + SumLengths(t, c, Without(scan, i))
  {
    var w := Without(scan, i);
    assert forall k :: k in w ==> k in t by {
      forall k | k in w ensures k in t {
        var j :| 0 <= j < |w| && w[j] == k;
        assert j < i ==> w[j] == scan[j];
        assert j >= i ==> w[j] == scan[j + 1];
      }
    }
    if i > 0 {
      var tail := scan[1..];
      SumWithout(t, c, tail, i - 1);
      assert w == [scan[0]] + Without(tail, i - 1);
    } else {
      assert w == scan[1..];
    }
  }

  /** SUM over the table does not depend on the order the rows are visited in. */
  lemma {:induction false} SumIndependentOfScan(t: Table, c: Column, a: seq<string>, b: seq<string>, keys: set<string>)
    requires Enumerates(a, keys) && Enumerates(b, keys)
    requires keys <= t.Keys
    ensures SumLengths(t, c, a) == SumLengths(t, c, b)
    decreases |a|
  {
    if a == [] {
      EnumerationSize(a, keys);
      EnumerationSize(b, keys);
    } else {
      var x := a[0];
      assert x in b;
      var j :| 0 <= j < |b| && b[j] == x;
      WithoutEnumerates(a, keys, 0);
      WithoutEnumerates(b, keys, j);
      SumWithout(t, c, a, 0);
      SumWithout(t, c, b, j);
      SumIndependentOfScan(t, c, Without(a, 0), Without(b, j), keys - {x});
    }
  }

  /** Replacing one visited row changes the sum by the difference of that row's lengths. */
  lemma {:induction false} SumAfterUpdate(t: Table, c: Column, scan: seq<string>, name: string, row: Row)
    requires forall k :: k in scan ==> k in t
    requires NoDup(scan) && name in scan
    ensures SumLengths(t[name := row], c, scan) + |Cells(t[name], c)|
         == SumLengths(t, c, scan) + |Cells(row, c)|
    decreases |scan|
  {
    var t' := t[name := row];
    if scan[0] == name {
      assert name !in scan[1..] by {
        forall j | 0 <= j < |scan[1..]| ensures scan[1..][j] != name {
          assert scan[1..][j] == scan[j + 1];
        }
      }
      SumUnaffected(t, c, scan[1..], name, row);
    } else {
      assert name in scan[1..];
      SumAfterUpdate(t, c, scan[1..], name, row);
    }
  }

  /** Rows the scan does not visit do not contribute to the sum. */
  lemma {:induction false} SumUnaffected(t: Table, c: Column, scan: seq<string>, name: string, row: Row)
    requires forall k :: k in scan ==> k in t
    requires name !in scan
    ensures SumLengths(t[name := row], c, scan) == SumLengths(t, c, scan)
    decreases |scan|
  {
    if scan != [] {
      assert scan[0] != name;
      SumUnaffected(t, c, scan[1..], name, row);
    }
  }
}

=== FILE: scenarios.dfy ===
/**
 The store's test scenarios restated over the model: each scenario lemma
 runs the same sequence of calls from an arbitrary starting table and states
 the outcomes the tests check. DeleteMiddlePolicy is not one of them but a
 concrete check of delete-by-id. Fresh ids are parameters; a UUID in its
 text form is 36 characters long, which is all the scenarios need to know
 of them.
 */
module Scenarios {
  import opened StoreTypes
  import opened RowScans
  import opened ServiceTable
  import opened SubDocuments
  import opened Facades
  import opened Counts

  /** The test helpers ignore the outcome of a clean-up DeleteService. */
  function Settle(r: Result<Table>, t: Table): Table
  {
    if r.Ok? then r.value else t
  }

  /** A fresh service with no arrays, as the tests build them. */
  function Fresh(name: string, kind: string): Service
  {
    Service(name, kind, None, None, map[])
  }

  /** `docs` with their ids replaced by `ids`, pairwise. */
  function Stamped(docs: seq<Doc>, ids: seq<string>): (r: seq<Doc>)
    requires |docs| == |ids|
    ensures |r| == |docs|
    ensures forall i :: 0 <= i < |r| ==> r[i] == docs[i].(id := ids[i])
  {
    seq(|docs|, i requires 0 <= i < |docs| => docs[i].(id := ids[i]))
  }

  /**
   The tests' loops that create one sub-document after another under one
   existing service: the column grows by the stamped documents, in order.
   */
  function CreateMany(t: Table, name: string, c: Column, docs: seq<Doc>, ids: seq<string>): (r: Result<Table>)
    requires |docs| == |ids| && NoDup(ids)
    requires name in t && forall i :: 0 <= i < |ids| ==> ids[i] !in Ids(Cells(t[name], c))
    ensures r == Ok(t[name := WithCells(t[name], c, Cells(t[name], c) + Stamped(docs, ids))])
    decreases |docs|
  {
    if docs == [] then
      assert Stamped(docs, ids) == [];
      AppendNothing(t, name, c);
      Ok(t)
    else
      var t1 := CreateDoc(t, name, c, docs[0], ids[0]).value.0;
      CreateManyStep(t, name, c, docs, ids, t1);
      var r := CreateMany(t1, name, c, docs[1..], ids[1..]);
      StampedCons(docs, ids);
      ComposeAppends(t, name, c, t1, docs[0].(id := ids[0]), Stamped(docs[1..], ids[1..]));
      r
  }

  /** Appending no documents to a column changes nothing. */
  lemma AppendNothing(t: Table, name: string, c: Column)
    requires name in t
    ensures t[name := WithCells(t[name], c, Cells(t[name], c) + [])] == t
  {
    assert Cells(t[name], c) + [] == Cells(t[name], c);
    assert WithCells(t[name], c, Cells(t[name], c)) == t[name] by {
      match c
      case PolicyColumn =>
      case RolePolicyColumn =>
    }
    assert t[name := t[name]] == t;
  }

  /** The first stamped document, then the rest. */
  lemma StampedCons(docs: seq<Doc>, ids: seq<string>)
    requires |docs| == |ids| > 0
    ensures Stamped(docs, ids) == [docs[0].(id := ids[0])] + Stamped(docs[1..], ids[1..])
  {
  }

  /** Appending `first` and then `rest` to one column appends `[first] + rest`. */
  lemma ComposeAppends(t: Table, name: string, c: Column, t1: Table, first: Doc, rest: seq<Doc>)
    requires name in t
    requires t1 == t[name := WithCells(t[name], c, Cells(t[name], c) + [first])]
    ensures t1[name := WithCells(t1[name], c, Cells(t1[name], c) + rest)]
         == t[name := WithCells(t[name], c, Cells(t[name], c) + ([first] + rest))]
  {
    assert Cells(t1[name], c) + rest == Cells(t[name], c) + ([first] + rest);
    assert WithCells(t1[name], c, Cells(t1[name], c) + rest) == WithCells(t[name], c, Cells(t[name], c) + ([first] + rest)) by {
      match c
      case PolicyColumn =>
      case RolePolicyColumn =>
    }
  }

  /** A table that differs from `t` in one column of one row is `t` with that column replaced. */
  lemma OnlyColumnChangedIsUpdate(t: Table, t': Table, name: string, c: Column)
    requires OnlyColumnChanged(t, t', name, c)
    ensures t' == t[name := WithCells(t[name], c, Cells(t'[name], c))]
  {
    var row := WithCells(t[name], c, Cells(t'[name], c));
    assert Cells(t'[name], PolicyColumn) == Cells(row, PolicyColumn);
    assert Cells(t'[name], RolePolicyColumn) == Cells(row, RolePolicyColumn);
    assert t'[name] == row;
  }

  /** After the first create, the remaining ids are still fresh for the grown array. */
  lemma CreateManyStep(t: Table, name: string, c: Column, docs: seq<Doc>, ids: seq<string>, t1: Table)
    requires |docs| == |ids| > 0 && NoDup(ids)
    requires name in t && forall i :: 0 <= i < |ids| ==> ids[i] !in Ids(Cells(t[name], c))
    requires t1 == CreateDoc(t, name, c, docs[0], ids[0]).value.0
    ensures NoDup(ids[1..])
    ensures name in t1 && forall i :: 0 <= i < |ids| - 1 ==> ids[1..][i] !in Ids(Cells(t1[name], c))
    ensures t1 == t[name := WithCells(t[name], c, Cells(t[name], c) + [docs[0].(id := ids[0])])]
  {
    OnlyColumnChangedIsUpdate(t, t1, name, c);
    forall i | 0 <= i < |ids| - 1 ensures ids[1..][i] !in Ids(Cells(t1[name], c)) {
      assert ids[1..][i] == ids[i + 1] != ids[0];
      assert Ids(Cells(t1[name], c)) == Ids(Cells(t[name], c)) + {ids[0]};
    }
  }

  /**
   Write ten services `app0` … `app9` with no arrays, then read the store:
   exactly ten services come back, whatever the table held before.
   */
  function TenApps(kind: string): (ss: seq<Service>)
    ensures |ss| == 10
    ensures NoDup(Names(ss))
  {
    var ss := seq(10, i requires 0 <= i < 10 => Fresh("app" + [(48 + i) as char], kind));
    assert forall i :: 0 <= i < 10 ==> Names(ss)[i][3] == (48 + i) as char;
    ss
  }

  lemma WriteReadPolicyStore(t: Table, kind: string, scan: seq<string>)
    requires Enumerates(scan, NameSet(TenApps(kind)))
    ensures WritePolicyStore(t, TenApps(kind)).1 == Pass
    ensures |ReadPolicyStore(WritePolicyStore(t, TenApps(kind)).0, scan)| == 10
  {
    WriteThenRead(t, TenApps(kind), scan);
  }

  /**
   Create `service1`, create one policy, find it by its id and in a listing of
   one, read counts (1, 0); get and delete of an unknown id fail; delete of
   the created id succeeds.
   */
  lemma ManagePolicies(t: Table, kind: string, policy: Doc, id1: string)
    requires |id1| == 36
    ensures var t1 := CreateService(Settle(DeleteService(t, "service1"), t), Fresh("service1", kind));
      && t1.Ok?
      && var created := CreatePolicy(t1.value, "service1", policy, id1);
      && created.Ok?
      && var (t2, p) := created.value;
      && GetPolicy(t2, "service1", p.id) == Ok(p)
      && ListAllPolicies(t2, "service1", "") == Ok([p])
      && GetPolicyAndRolePolicyCounts(t2).value["service1"] == PolicyAndRolePolicyCount(1, 0)
      && GetPolicy(t2, "service1", "nonexistantID").Err?
      && DeletePolicy(t2, "service1", "nonexistantID").Err?
      && DeletePolicy(t2, "service1", p.id).Ok?
  {
    var t1 := CreateService(Settle(DeleteService(t, "service1"), t), Fresh("service1", kind)).value;
    CreateThenGet(t1, "service1", PolicyColumn, policy, id1, "");
    var (t2, p) := CreatePolicy(t1, "service1", policy, id1).value;
    assert t2["service1"].policies == [p];
    assert Ids([p]) == {id1};
  }

  /** The role-policy counterpart of ManagePolicies; counts read (0, 1). */
  lemma ManageRolePolicies(t: Table, kind: string, rolePolicy: Doc, id1: string)
    requires |id1| == 36
    ensures var t1 := CreateService(Settle(DeleteService(t, "service1"), t), Fresh("service1", kind));
      && t1.Ok?
      && var created := CreateRolePolicy(t1.value, "service1", rolePolicy, id1);
      && created.Ok?
      && var (t2, p) := created.value;
      && GetRolePolicy(t2, "service1", p.id) == Ok(p)
      && ListAllRolePolicies(t2, "service1", "") == Ok([p])
      && GetPolicyAndRolePolicyCounts(t2).value["service1"] == PolicyAndRolePolicyCount(0, 1)
      && GetRolePolicy(t2, "service1", "nonexistID").Err?
      && DeleteRolePolicy(t2, "service1", "nonexistID").Err?
      && DeleteRolePolicy(t2, "service1", p.id).Ok?
  {
    var t1 := CreateService(Settle(DeleteService(t, "service1"), t), Fresh("service1", kind)).value;
    CreateThenGet(t1, "service1", RolePolicyColumn, rolePolicy, id1, "");
    var (t2, p) := CreateRolePolicy(t1, "service1", rolePolicy, id1).value;
    assert t2["service1"].rolePolicies == [p];
    assert Ids([p]) == {id1};
  }

  /**
   The tests' setup of one service: create it with no arrays, then create
   each policy and each role policy under it, in order.
   */
  function Populate(
    t: Table, name: string, kind: string, policies: seq<Doc>, rolePolicies: seq<Doc>,
    pids: seq<string>, rids: seq<string>): (r: Table)
    requires name !in t
    requires |policies| == |pids| && NoDup(pids) && |rolePolicies| == |rids| && NoDup(rids)
    ensures r == t[name := Row(kind, Stamped(policies, pids), Stamped(rolePolicies, rids), map[])]
  {
    PopulateSteps(t, name, kind, policies, rolePolicies, pids, rids);
    var s := CreateService(t, Fresh(name, kind)).value;
    var sp := CreateMany(s, name, PolicyColumn, policies, pids).value;
    CreateMany(sp, name, RolePolicyColumn, rolePolicies, rids).value
  }

  /** The tables between the steps of Populate, and that each step's preconditions hold. */
  lemma PopulateSteps(
    t: Table, name: string, kind: string, policies: seq<Doc>, rolePolicies: seq<Doc>,
    pids: seq<string>, rids: seq<string>)
    requires name !in t
    requires |policies| == |pids| && NoDup(pids) && |rolePolicies| == |rids| && NoDup(rids)
    ensures var s := t[name := Row(kind, [], [], map[])];
      && CreateService(t, Fresh(name, kind)) == Ok(s)
      && (forall i :: 0 <= i < |pids| ==> pids[i] !in Ids(Cells(s[name], PolicyColumn)))
    ensures var sp := t[name := Row(kind, Stamped(policies, pids), [], map[])];
      && CreateMany(t[name := Row(kind, [], [], map[])], name, PolicyColumn, policies, pids) == Ok(sp)
      && (forall i :: 0 <= i < |rids| ==> rids[i] !in Ids(Cells(sp[name], RolePolicyColumn)))
      && CreateMany(sp, name, RolePolicyColumn, rolePolicies, rids)
         == Ok(t[name := Row(kind, Stamped(policies, pids), Stamped(rolePolicies, rids), map[])])
  {
    FreshServiceRow(t, name, kind);
    FillColumn(t, name, Row(kind, [], [], map[]), PolicyColumn, policies, pids, Row(kind, Stamped(policies, pids), [], map[]));
    var sp := t[name := Row(kind, Stamped(policies, pids), [], map[])];
    FillColumn(t, name, sp[name], RolePolicyColumn, rolePolicies, rids,
      Row(kind, Stamped(policies, pids), Stamped(rolePolicies, rids), map[]));
  }

  /** Creating a service with no arrays stores an empty row. */
  lemma FreshServiceRow(t: Table, name: string, kind: string)
    requires name !in t
    ensures CreateService(t, Fresh(name, kind)) == Ok(t[name := Row(kind, [], [], map[])])
  {
  }

  /** Creating documents under an empty column of `row` fills it with the stamped documents. */
  lemma FillColumn(t: Table, name: string, row: Row, c: Column, docs: seq<Doc>, ids: seq<string>, filled: Row)
    requires |docs| == |ids| && NoDup(ids) && Cells(row, c) == []
    requires filled == WithCells(row, c, Stamped(docs, ids))
    ensures forall i :: 0 <= i < |ids| ==> ids[i] !in Ids(Cells(t[name := row][name], c))
    ensures CreateMany(t[name := row], name, c, docs, ids) == Ok(t[name := filled])
  {
    assert Cells(row, c) + Stamped(docs, ids) == Stamped(docs, ids);
    assert t[name := row][name := filled] == t[name := filled];
  }

  /**
   The first half of the item-count scenario, from an emptied table: one
   service, then three policies (count 3), then two role policies (count 2).
   */
  lemma CheckItemsCountFirstService(
    t: Table, kind: string, policies: seq<Doc>, rolePolicies: seq<Doc>, p1: seq<string>, r1: seq<string>)
    requires |policies| == 3 && |rolePolicies| == 2
    requires |p1| == 3 && |r1| == 2 && NoDup(p1) && NoDup(r1)
    ensures var s1 := CreateService(DeleteServices(t).value, Fresh("service1", kind)).value;
      var s1p := CreateMany(s1, "service1", PolicyColumn, policies, p1).value;
      && GetServiceCount(s1) == 1
      && GetPolicyCount(s1p, "service1", ["service1"]) == Ok(3)
      && GetRolePolicyCount(Populate(DeleteServices(t).value, "service1", kind, policies, rolePolicies, p1, r1),
                            "service1", ["service1"]) == Ok(2)
  {
    var s1 := CreateService(DeleteServices(t).value, Fresh("service1", kind)).value;
    assert s1.Keys == {"service1"};
    var s1p := CreateMany(s1, "service1", PolicyColumn, policies, p1).value;
    assert Enumerates(["service1"], s1p.Keys);
    var s1r := Populate(DeleteServices(t).value, "service1", kind, policies, rolePolicies, p1, r1);
    assert Enumerates(["service1"], s1r.Keys);
  }

  /**
   The second half, from the first service's table: a second service set up
   the same way; two services, per-service counts 3 and 2, all-services
   counts 6 and 4, and the projection maps both services to (3, 2).
   */
  lemma CheckItemsCount(
    t: Table, kind: string, policies: seq<Doc>, rolePolicies: seq<Doc>,
    p1: seq<string>, r1: seq<string>, p2: seq<string>, r2: seq<string>, scan: seq<string>)
    requires |policies| == 3 && |rolePolicies| == 2
    requires |p1| == 3 && |r1| == 2 && |p2| == 3 && |r2| == 2
    requires NoDup(p1) && NoDup(r1) && NoDup(p2) && NoDup(r2)
    requires Enumerates(scan, {"service1", "service2"})
    ensures var s1r := Populate(DeleteServices(t).value, "service1", kind, policies, rolePolicies, p1, r1);
      var s2 := CreateService(s1r, Fresh("service2", kind)).value;
      var s2r := Populate(s1r, "service2", kind, policies, rolePolicies, p2, r2);
      && GetServiceCount(s2) == 2
      && s2r.Keys == {"service1", "service2"}
      && GetPolicyCount(s2r, "service2", scan) == Ok(3)
      && GetPolicyCount(s2r, "", scan) == Ok(6)
      && GetRolePolicyCount(s2r, "service2", scan) == Ok(2)
      && GetRolePolicyCount(s2r, "", scan) == Ok(4)
      && GetPolicyAndRolePolicyCounts(s2r).value["service1"] == PolicyAndRolePolicyCount(3, 2)
      && GetPolicyAndRolePolicyCounts(s2r).value["service2"] == PolicyAndRolePolicyCount(3, 2)
  {
    var s1r := Populate(DeleteServices(t).value, "service1", kind, policies, rolePolicies, p1, r1);
    var s2r := Populate(s1r, "service2", kind, policies, rolePolicies, p2, r2);
    TwoServices(t, kind, policies, rolePolicies, p1, r1, p2, r2);
    TwoServiceCounts(s2r, scan);
  }

  /** The counts the scenario reads from any table of two services holding three policies and two role policies each. */
  lemma TwoServiceCounts(u: Table, scan: seq<string>)
    requires u.Keys == {"service1", "service2"} && Enumerates(scan, u.Keys)
    requires |u["service1"].policies| == 3 && |u["service1"].rolePolicies| == 2
    requires |u["service2"].policies| == 3 && |u["service2"].rolePolicies| == 2
    ensures GetPolicyCount(u, "service2", scan) == Ok(3)
    ensures GetPolicyCount(u, "", scan) == Ok(6)
    ensures GetRolePolicyCount(u, "service2", scan) == Ok(2)
    ensures GetRolePolicyCount(u, "", scan) == Ok(4)
    ensures GetPolicyAndRolePolicyCounts(u).value["service1"] == PolicyAndRolePolicyCount(3, 2)
    ensures GetPolicyAndRolePolicyCounts(u).value["service2"] == PolicyAndRolePolicyCount(3, 2)
  {
    TwoRowSums(u, scan, PolicyColumn);
    TwoRowSums(u, scan, RolePolicyColumn);
  }

  /** The table the two setups leave: exactly the two populated rows. */
  lemma TwoServices(
    t: Table, kind: string, policies: seq<Doc>, rolePolicies: seq<Doc>,
    p1: seq<string>, r1: seq<string>, p2: seq<string>, r2: seq<string>)
    requires |policies| == |p1| == |p2| && |rolePolicies| == |r1| == |r2|
    requires NoDup(p1) && NoDup(r1) && NoDup(p2) && NoDup(r2)
    ensures var s1r := Populate(DeleteServices(t).value, "service1", kind, policies, rolePolicies, p1, r1);
      var s2r := Populate(s1r, "service2", kind, policies, rolePolicies, p2, r2);
      && s1r.Keys == {"service1"}
      && |CreateService(s1r, Fresh("service2", kind)).value| == 2
      && s2r.Keys == {"service1", "service2"}
      && s2r["service1"] == Row(kind, Stamped(policies, p1), Stamped(rolePolicies, r1), map[])
      && s2r["service2"] == Row(kind, Stamped(policies, p2), Stamped(rolePolicies, r2), map[])
  {
    var s1r := Populate(DeleteServices(t).value, "service1", kind, policies, rolePolicies, p1, r1);
    assert s1r.Keys == {"service1"};
    var s2 := CreateService(s1r, Fresh("service2", kind)).value;
    assert s2.Keys == {"service1", "service2"};
  }

  /** Over a table of `service1` and `service2`, any scan order sums the two rows. */
  lemma TwoRowSums(t: Table, scan: seq<string>, c: Column)
    requires t.Keys == {"service1", "service2"} && Enumerates(scan, t.Keys)
    ensures SumLengths(t, c, scan) == |Cells(t["service1"], c)| + |Cells(t["service2"], c)|
  {
    var order := ["service1", "service2"];
    assert Enumerates(order, t.Keys);
    SumIndependentOfScan(t, c, scan, order, t.Keys);
    assert order[1..][1..] == [];
  }

  /**
   Not one of the store's tests: a check of delete-by-id on a concrete
   array. Three policies, delete the middle one by id: the listing is the
   first and the third, in that order, and the deleted id is no longer found.
   */
  lemma DeleteMiddlePolicy(t: Table, name: string, a: Doc, b: Doc, c: Doc)
    requires name in t && t[name].policies == [a, b, c]
    requires a.id != b.id && b.id != c.id && a.id != c.id
    ensures DeletePolicy(t, name, b.id).Ok?
    ensures ListAllPolicies(DeletePolicy(t, name, b.id).value, name, "") == Ok([a, c])
    ensures GetPolicy(DeletePolicy(t, name, b.id).value, name, b.id).Err?
  {
    var docs := t[name].policies;
    assert docs[1] == b;
    assert UniqueIds(docs);
    assert b.id in Ids(docs);
    UniqueOccursOnce(docs, b.id);
    assert FirstIndex(docs, b.id) == 1;
    assert RemoveAt(docs, 1) == [a, c];
    assert DeleteDoc(t, name, PolicyColumn, b.id) == Ok(t[name := WithCells(t[name], PolicyColumn, [a, c])]);
  }
}

=== FILE: service_table.dfy ===
/**
 Service-level operations on the services table: create, delete one, delete
 all, get, list, count and names, and the whole-store read and write built on
 them. Every mutation is a pure transition: `Ok` carries the new table, `Err`
 means the table is unchanged.
 */
module ServiceTable {
  import opened StoreTypes
  import opened RowScans

  /**
   CreateService first rewrites the caller's empty or nil arrays to empty,
   non-nil slices; the row it inserts is built from this normalized record.
   */
  function Normalize(s: Service): (n: Service)
    ensures n.name == s.name && n.kind == s.kind && n.metadata == s.metadata
    ensures n.policies.Some? && n.rolePolicies.Some?
    ensures s.policies == None ==> n.policies == Some([])
    ensures s.rolePolicies == None ==> n.rolePolicies == Some([])
    ensures s.policies.Some? ==> n.policies == s.policies
    ensures s.rolePolicies.Some? ==> n.rolePolicies == s.rolePolicies
  {
    s.(policies := Some(OrEmpty(s.policies)), rolePolicies := Some(OrEmpty(s.rolePolicies)))
  }

  /**
   INSERT of one row keyed by the service name. The name is the primary key,
   so inserting an existing name is rejected by the database; an INSERT that
   is not rejected affects exactly one row, so the zero-rows branch cannot
   fire.
   */
  function CreateService(t: Table, s: Service): (r: Result<Table>)
    ensures r.Ok? <==> s.name !in t
    ensures r.Err? ==> r.error == DuplicateName
    ensures r.Ok? ==> r.value.Keys == t.Keys + {s.name}
    ensures r.Ok? ==> forall n :: n in t ==> r.value[n] == t[n]
    ensures r.Ok? ==> r.value[s.name].kind == s.kind && r.value[s.name].metadata == s.metadata
    ensures r.Ok? && s.policies == None ==> r.value[s.name].policies == []
    ensures r.Ok? && s.rolePolicies == None ==> r.value[s.name].rolePolicies == []
    ensures r.Ok? && s.policies.Some? ==> r.value[s.name].policies == s.policies.value
    ensures r.Ok? && s.rolePolicies.Some? ==> r.value[s.name].rolePolicies == s.rolePolicies.value
  {
    if s.name in t then Err(DuplicateName) else Ok(t[s.name := StoredRow(Normalize(s))])
  }

  /** DELETE of the row with the given name; zero rows affected is an error. */
  function DeleteService(t: Table, name: string): (r: Result<Table>)
    ensures r.Ok? <==> name in t
    ensures r.Err? ==> r.error == RowsUnaffected("unable to delete service; service does not exist")
    ensures r.Ok? ==> r.value.Keys == t.Keys - {name}
    ensures r.Ok? ==> forall n :: n in r.value ==> r.value[n] == t[n]
  {
    if name !in t then Err(RowsUnaffected("unable to delete service; service does not exist"))
    else Ok(t - {name})
  }

  /** DELETE of every row; an already empty table is not an error (the store only logs it). */
  function DeleteServices(t: Table): (r: Result<Table>)
    ensures r.Ok? && |r.value| == 0
  {
    Ok(map[])
  }

  /** SELECT of the row with the given name; no row makes `Scan` fail. */
  function GetService(t: Table, name: string): (r: Result<Service>)
    ensures r.Ok? <==> name in t
    ensures r.Err? ==> r.error == NoRows
    ensures r.Ok? ==> r.value.name == name && r.value.kind == t[name].kind
    ensures r.Ok? ==> r.value.policies == Some(t[name].policies)
    ensures r.Ok? ==> r.value.rolePolicies == Some(t[name].rolePolicies)
    ensures r.Ok? ==> r.value.metadata == t[name].metadata
  {
    if name in t then Ok(ServiceOf(name, t[name])) else Err(NoRows)
  }

  /** SELECT of every row, in the order the database visits them. */
  function ListAllServices(t: Table, scan: seq<string>): (r: seq<Service>)
    requires Enumerates(scan, t.Keys)
    ensures |r| == |scan| == |t|
    ensures forall i :: 0 <= i < |r| ==> r[i].name == scan[i]
    ensures forall i :: 0 <= i < |r| ==> GetService(t, r[i].name) == Ok(r[i])
    ensures forall n :: n in t ==> exists i :: 0 <= i < |r| && r[i].name == n
  {
    EnumerationSize(scan, t.Keys);
    var r := seq(|scan|, i requires 0 <= i < |scan| => ServiceOf(scan[i], t[scan[i]]));
    assert forall n :: n in t ==> exists i :: 0 <= i < |r| && r[i].name == n by {
      forall n | n in t ensures exists i :: 0 <= i < |r| && r[i].name == n {
        var i :| 0 <= i < |scan| && scan[i] == n;
        assert r[i].name == n;
      }
    }
    r
  }

  /** `SELECT count(1)`: the number of rows. */
  function GetServiceCount(t: Table): (n: nat)
    ensures n == 0 <==> t == map[]
  {
    |t|
  }

  /** SELECT of every name, in the order the database visits the rows. */
  function GetServiceNames(t: Table, scan: seq<string>): (r: seq<string>)
    requires Enumerates(scan, t.Keys)
    ensures |r| == GetServiceCount(t)
    ensures NoDup(r)
    ensures forall n :: n in r <==> n in t
  {
    EnumerationSize(scan, t.Keys);
    scan
  }

  /** The services of the store; the functions part is always nil. */
  function ReadPolicyStore(t: Table, scan: seq<string>): (r: seq<Service>)
    requires Enumerates(scan, t.Keys)
    ensures |r| == GetServiceCount(t) == |scan|
    ensures forall n :: n in t <==> n in Names(r)
    ensures forall i :: 0 <= i < |r| ==> r[i].name == scan[i] && GetService(t, r[i].name) == Ok(r[i])
  {
    var r := ListAllServices(t, scan);
    assert Names(r) == scan;
    r
  }

  function NameSet(ss: seq<Service>): set<string>
  {
    set i | 0 <= i < |ss| :: ss[i].name
  }

  /** The names of distinctly named services enumerate their name set. */
  lemma NamesEnumerate(ss: seq<Service>)
    requires NoDup(Names(ss))
    ensures Enumerates(Names(ss), NameSet(ss))
  {
    forall n | n in Names(ss) ensures n in NameSet(ss) {
      var i :| 0 <= i < |ss| && Names(ss)[i] == n;
    }
    forall n | n in NameSet(ss) ensures n in Names(ss) {
      var i :| 0 <= i < |ss| && ss[i].name == n;
      assert Names(ss)[i] == n;
    }
  }

  function Names(ss: seq<Service>): (r: seq<string>)
    ensures |r| == |ss|
    ensures forall i :: 0 <= i < |ss| ==> r[i] == ss[i].name
  {
    seq(|ss|, i requires 0 <= i < |ss| => ss[i].name)
  }

  /**
   CreateService applied to each service in turn, stopping at the first
   failure; the services inserted before the failure stay inserted.
   */
  function CreateAll(t: Table, ss: seq<Service>): (r: (Table, Outcome))
    ensures r.1 == Pass <==> NoDup(Names(ss)) && forall i :: 0 <= i < |ss| ==> ss[i].name !in t
    ensures r.1.Fail? ==> r.1.error == DuplicateName
    ensures r.1.Fail? ==> exists k :: StoppedAt(t, ss, k, r.0)
    ensures t.Keys <= r.0.Keys <= t.Keys + NameSet(ss)
    ensures forall n :: n in t ==> r.0[n] == t[n]
    ensures forall n :: n in r.0 && n !in t ==> Inserted(r.0, ss, n)
    ensures r.1 == Pass ==> r.0.Keys == t.Keys + NameSet(ss)
    ensures r.1 == Pass ==> forall i :: 0 <= i < |ss| ==> r.0[ss[i].name] == StoredRow(Normalize(ss[i]))
    decreases |ss|
  {
    if ss == [] then (t, Pass)
    else match CreateService(t, ss[0])
      case Err(e) => StoppedAtFirst(t, ss); (t, Fail(e))
      case Ok(t1) =>
        var r := CreateAll(t1, ss[1..]);
        CreateAllStep(t, ss, t1, r);
        FailStep(t, ss, t1, r);
        r
  }

  /**
   The batch stopped at `ss[k]`: the services before it were insertable and
   are exactly the ones added to `t`, and `ss[k]` clashes with a stored name.
   */
  ghost predicate StoppedAt(t: Table, ss: seq<Service>, k: int, t': Table)
  {
    && 0 <= k < |ss|
    && NoDup(Names(ss[..k]))
    && (forall i :: 0 <= i < k ==> ss[i].name !in t)
    && ss[k].name in t'
    && t'.Keys == t.Keys + NameSet(ss[..k])
  }

  /** A batch whose first name is stored stops at once, adding nothing. */
  lemma StoppedAtFirst(t: Table, ss: seq<Service>)
    requires ss != [] && ss[0].name in t
    ensures StoppedAt(t, ss, 0, t)
  {
    assert ss[..0] == [];
    assert NameSet(ss[..0]) == {};
  }

  /** The failure case of CreateAll's contract, from its tail `ss[1..]` to `ss`. */
  lemma FailStep(t: Table, ss: seq<Service>, t1: Table, r: (Table, Outcome))
    requires ss != [] && CreateService(t, ss[0]) == Ok(t1)
    requires r.1.Fail? ==> exists k :: StoppedAt(t1, ss[1..], k, r.0)
    ensures r.1.Fail? ==> exists k :: StoppedAt(t, ss, k, r.0)
  {
    if r.1.Fail? {
      var k :| StoppedAt(t1, ss[1..], k, r.0);
      var prefix := ss[..k + 1];
      assert prefix[1..] == ss[1..][..k];
      assert prefix[0] == ss[0];
      FreshStep(t, prefix, t1);
      NameSetCons(prefix);
      assert ss[k + 1] == ss[1..][k];
      assert StoppedAt(t, ss, k + 1, r.0);
    }
  }

  /** Row `n` of `t` holds one of the services of `ss`, as CreateService stores it. */
  ghost predicate Inserted(t: Table, ss: seq<Service>, n: string)
    requires n in t
  {
    exists i :: 0 <= i < |ss| && ss[i].name == n && t[n] == StoredRow(Normalize(ss[i]))
  }

  /** The step of CreateAll's contract from its tail `ss[1..]` to `ss`. */
  lemma CreateAllStep(t: Table, ss: seq<Service>, t1: Table, r: (Table, Outcome))
    requires ss != [] && CreateService(t, ss[0]) == Ok(t1)
    requires r.1 == Pass <==> NoDup(Names(ss[1..])) && forall i :: 0 <= i < |ss| - 1 ==> ss[1..][i].name !in t1
    requires t1.Keys <= r.0.Keys <= t1.Keys + NameSet(ss[1..])
    requires forall n :: n in t1 ==> r.0[n] == t1[n]
    requires forall n :: n in r.0 && n !in t1 ==> Inserted(r.0, ss[1..], n)
    requires r.1 == Pass ==> r.0.Keys == t1.Keys + NameSet(ss[1..])
    requires r.1 == Pass ==> forall i :: 0 <= i < |ss| - 1 ==> r.0[ss[1..][i].name] == StoredRow(Normalize(ss[1..][i]))
    ensures r.1 == Pass <==> NoDup(Names(ss)) && forall i :: 0 <= i < |ss| ==> ss[i].name !in t
    ensures t.Keys <= r.0.Keys <= t.Keys + NameSet(ss)
    ensures forall n :: n in t ==> r.0[n] == t[n]
    ensures forall n :: n in r.0 && n !in t ==> Inserted(r.0, ss, n)
    ensures r.1 == Pass ==> r.0.Keys == t.Keys + NameSet(ss)
    ensures r.1 == Pass ==> forall i :: 0 <= i < |ss| ==> r.0[ss[i].name] == StoredRow(Normalize(ss[i]))
  {
    FreshStep(t, ss, t1);
    NameSetCons(ss);
    forall n | n in r.0 && n !in t ensures Inserted(r.0, ss, n) {
      if n in t1 {
        assert n == ss[0].name;
      } else {
        var i :| 0 <= i < |ss| - 1 && ss[1..][i].name == n && r.0[n] == StoredRow(Normalize(ss[1..][i]));
        assert ss[i + 1] == ss[1..][i];
      }
    }
    if r.1 == Pass {
      forall i | 0 <= i < |ss| ensures r.0[ss[i].name] == StoredRow(Normalize(ss[i])) {
        if i > 0 {
          assert ss[i] == ss[1..][i - 1];
        }
      }
    }
  }

  /** The batch is insertable into `t` exactly when its tail is insertable after its head. */
  lemma FreshStep(t: Table, ss: seq<Service>, t1: Table)
    requires ss != [] && CreateService(t, ss[0]) == Ok(t1)
    ensures (NoDup(Names(ss)) && forall i :: 0 <= i < |ss| ==> ss[i].name !in t)
        <==> (NoDup(Names(ss[1..])) && forall i :: 0 <= i < |ss| - 1 ==> ss[1..][i].name !in t1)
  {
    var tail := ss[1..];
    var allFresh := NoDup(Names(ss)) && forall i :: 0 <= i < |ss| ==> ss[i].name !in t;
    var tailFresh := NoDup(Names(tail)) && forall i :: 0 <= i < |tail| ==> tail[i].name !in t1;
    if allFresh {
      forall i | 0 <= i < |tail| ensures tail[i].name !in t1 {
        assert Names(ss)[0] != Names(ss)[i + 1];
      }
      forall i, j | 0 <= i < j < |tail| ensures Names(tail)[i] != Names(tail)[j] {
        assert Names(ss)[i + 1] != Names(ss)[j + 1];
      }
    }
    if tailFresh {
      forall i, j | 0 <= i < j < |ss| ensures Names(ss)[i] != Names(ss)[j] {
        if i == 0 {
          assert ss[j].name == tail[j - 1].name;
        } else {
          assert Names(tail)[i - 1] != Names(tail)[j - 1];
        }
      }
      forall i | 0 <= i < |ss| ensures ss[i].name !in t {
        if i > 0 {
          assert ss[i] == tail[i - 1];
        }
      }
    }
  }

  /** The names of a batch are its head's name and its tail's names. */
  lemma NameSetCons(ss: seq<Service>)
    requires ss != []
    ensures NameSet(ss) == {ss[0].name} + NameSet(ss[1..])
  {
    var tail := ss[1..];
    forall n | n in NameSet(ss) ensures n in {ss[0].name} + NameSet(tail) {
      var i :| 0 <= i < |ss| && ss[i].name == n;
      if i > 0 {
        assert tail[i - 1].name == n;
      }
    }
    forall n | n in NameSet(tail) ensures n in NameSet(ss) {
      var i :| 0 <= i < |tail| && tail[i].name == n;
      assert ss[i + 1].name == n;
    }
  }

  /**
   Deletes every service, then creates the given ones in order. The function
   list of a policy store is not part of this model.
   */
  function WritePolicyStore(t: Table, services: seq<Service>): (r: (Table, Outcome))
    ensures r.1 == Pass <==> NoDup(Names(services))
    ensures r.1.Fail? ==> r.1.error == DuplicateName
    ensures r.1.Fail? ==> WriteStopped(services, r.0)
    ensures r.0.Keys <= NameSet(services)
    ensures forall n :: n in r.0 ==> Inserted(r.0, services, n)
    ensures r.1 == Pass ==> r.0.Keys == NameSet(services)
    ensures r.1 == Pass ==> forall i :: 0 <= i < |services| ==> GetService(r.0, services[i].name) == Ok(Normalize(services[i]))
  {
    var empty := DeleteServices(t).value;
    WriteOnEmpty(empty, services);
    CreateAll(empty, services)
  }

  /** The contract of WritePolicyStore, for the batch created on the emptied table. */
  lemma WriteOnEmpty(empty: Table, services: seq<Service>)
    requires empty == map[]
    ensures var r := CreateAll(empty, services);
      && (r.1 == Pass <==> NoDup(Names(services)))
      && (r.1.Fail? ==> r.1.error == DuplicateName)
      && (r.1.Fail? ==> WriteStopped(services, r.0))
      && r.0.Keys <= NameSet(services)
      && (forall n :: n in r.0 ==> Inserted(r.0, services, n))
      && (r.1 == Pass ==> r.0.Keys == NameSet(services))
      && (r.1 == Pass ==> forall i :: 0 <= i < |services| ==> GetService(r.0, services[i].name) == Ok(Normalize(services[i])))
  {
    var r := CreateAll(empty, services);
    if r.1 == Pass {
      StoredRowsReadBack(r.0, services);
    } else {
      StoppedOnEmpty(r.0, services);
    }
  }

  /**
   A write that stopped at `services[k]`: the distinct names before it are
   exactly the stored ones, and its own name repeats one of them.
   */
  ghost predicate WriteStopped(services: seq<Service>, t': Table)
  {
    exists k ::
      0 < k < |services| && NoDup(Names(services[..k])) && t'.Keys == NameSet(services[..k]) && services[k].name in t'
  }

  /** A batch that stops on an empty table stops at a name repeated from before it. */
  lemma StoppedOnEmpty(t': Table, services: seq<Service>)
    requires exists k :: StoppedAt(map[], services, k, t')
    ensures WriteStopped(services, t')
  {
    var k :| StoppedAt(map[], services, k, t');
    assert services[k].name in NameSet(services[..k]);
  }

  /** Reading back the rows CreateService inserted yields the normalized services. */
  lemma StoredRowsReadBack(t: Table, services: seq<Service>)
    requires forall i :: 0 <= i < |services| ==> services[i].name in t
    requires forall i :: 0 <= i < |services| ==> t[services[i].name] == StoredRow(Normalize(services[i]))
    ensures forall i :: 0 <= i < |services| ==> GetService(t, services[i].name) == Ok(Normalize(services[i]))
  {
  }

  /** CreateService followed by GetService returns the normalized service. */
  lemma CreateServiceThenGet(t: Table, s: Service)
    requires s.name !in t
    ensures CreateService(t, s).Ok?
    ensures GetService(CreateService(t, s).value, s.name) == Ok(Normalize(s))
    ensures GetServiceCount(CreateService(t, s).value) == GetServiceCount(t) + 1
  {
  }

  /** After a successful DeleteService the name is gone and the count drops by one. */
  lemma DeleteServiceThenGet(t: Table, name: string)
    requires name in t
    ensures DeleteService(t, name).Ok?
    ensures GetService(DeleteService(t, name).value, name) == Err(NoRows)
    ensures GetServiceCount(DeleteService(t, name).value) == GetServiceCount(t) - 1
  {
  }

  /** After DeleteServices no service remains, whatever was stored before. */
  lemma DeleteServicesEmpties(t: Table, name: string, scan: seq<string>)
    requires Enumerates(scan, {})
    ensures GetServiceCount(DeleteServices(t).value) == 0
    ensures GetService(DeleteServices(t).value, name) == Err(NoRows)
    ensures ListAllServices(DeleteServices(t).value, scan) == []
  {
  }

  /**
   Writing distinctly named services and reading the store back yields
   exactly those services, whatever the table held before.
   */
  lemma {:induction false} WriteThenRead(t: Table, services: seq<Service>, scan: seq<string>)
    requires NoDup(Names(services))
    requires Enumerates(scan, NameSet(services))
    ensures WritePolicyStore(t, services).1 == Pass
    ensures |ReadPolicyStore(WritePolicyStore(t, services).0, scan)| == |services|
    ensures forall j :: 0 <= j < |services| ==> Normalize(services[j]) in ReadPolicyStore(WritePolicyStore(t, services).0, scan)
    ensures forall s :: s in ReadPolicyStore(WritePolicyStore(t, services).0, scan) ==>
              exists j :: 0 <= j < |services| && s == Normalize(services[j])
  {
    NamesEnumerate(services);
    EnumerationSize(Names(services), NameSet(services));
    ReadBackIsWritten(WritePolicyStore(t, services).0, services, scan);
  }

  /** A table holding exactly the normalized services reads back as exactly those services. */
  lemma ReadBackIsWritten(w: Table, services: seq<Service>, scan: seq<string>)
    requires Enumerates(scan, w.Keys) && w.Keys == NameSet(services)
    requires forall j :: 0 <= j < |services| ==> GetService(w, services[j].name) == Ok(Normalize(services[j]))
    ensures forall j :: 0 <= j < |services| ==> Normalize(services[j]) in ReadPolicyStore(w, scan)
    ensures forall s :: s in ReadPolicyStore(w, scan) ==> exists j :: 0 <= j < |services| && s == Normalize(services[j])
  {
    var r := ReadPolicyStore(w, scan);
    assert r == ListAllServices(w, scan);
    forall j | 0 <= j < |services| ensures Normalize(services[j]) in r {
      assert services[j].name in NameSet(services);
      var i :| 0 <= i < |r| && r[i].name == services[j].name;
      assert GetService(w, r[i].name) == Ok(r[i]);
    }
    forall s | s in r ensures exists j :: 0 <= j < |services| && s == Normalize(services[j]) {
      var i :| 0 <= i < |r| && r[i] == s;
      assert GetService(w, s.name) == Ok(s);
      assert s.name in NameSet(services);
      var j :| 0 <= j < |services| && services[j].name == s.name;
    }
  }
}

=== FILE: store_types.dfy ===
/**
 The data model of the postgres-backed policy store: one table of services,
 keyed by service name, each row holding two jsonb arrays of sub-documents
 (policies and role policies), a type string and a metadata object.

 The jsonb encoding itself is abstracted away: an element of an array is a
 `Doc` whose `id` is the field the SQL addresses (`item_object->>'id'`) and
 whose remaining fields are carried verbatim.
 */
module StoreTypes {

  /** A value that may be absent; used for Go slices that may be nil. */
  datatype Option<+T> = None | Some(value: T)

  /** The errors the store reports to its callers. */
  datatype StoreError =
      /** A guarded UPDATE/DELETE matched no row; carries the message the store returns. */
    | RowsUnaffected(message: string)
      /** A single-row query returned no row (`sql.ErrNoRows` from `Scan`). */
    | NoRows
      /** An INSERT of a name that is already the primary key of a row. */
    | DuplicateName
      /** Delete-by-id of an id that no element of the array carries. */
    | UnknownElement
      /** The scalar position subquery of delete-by-id matched more than one element. */
    | MultipleMatches
      /** The statement calls a SQL function the database does not define. */
    | UndefinedFunction(name: string)

  datatype Result<+T> = Ok(value: T) | Err(error: StoreError)

  datatype Outcome = Pass | Fail(error: StoreError)

  /** A JSON value, for the caller-defined fields of a sub-document. */
  datatype Json =
    | JString(text: string)
    | JArray(items: seq<Json>)
    | JObject(members: seq<(string, Json)>)

  /** One element of a policies or role_policies array. */
  datatype Doc = Doc(id: string, payload: seq<(string, Json)>)

  /** The two array-valued columns of a service row. */
  datatype Column = PolicyColumn | RolePolicyColumn

  /** A row of the services table, without its key. */
  datatype Row = Row(kind: string, policies: seq<Doc>, rolePolicies: seq<Doc>, metadata: map<string, string>)

  /** The services table: service name (the primary key) to row. */
  type Table = map<string, Row>

  /** The service record callers pass in and get back; a nil Go slice is `None`. */
  datatype Service = Service(
    name: string,
    kind: string,
    policies: Option<seq<Doc>>,
    rolePolicies: Option<seq<Doc>>,
    metadata: map<string, string>)

  function Cells(r: Row, c: Column): seq<Doc>
  {
    match c
    case PolicyColumn => r.policies
    case RolePolicyColumn => r.rolePolicies
  }

  /** The row with column `c` replaced by `docs`; the other column, type and metadata are kept. */
  function WithCells(r: Row, c: Column, docs: seq<Doc>): (r': Row)
    ensures Cells(r', c) == docs
    ensures forall c' :: c' != c ==> Cells(r', c') == Cells(r, c')
    ensures r'.kind == r.kind && r'.metadata == r.metadata
  {
    match c
    case PolicyColumn => r.(policies := docs)
    case RolePolicyColumn => r.(rolePolicies := docs)
  }

  /** The message of a create on a name that matches no row. */
  function CreateFailed(c: Column): string
  {
    match c
    case PolicyColumn => "unable to create policy; an unknown error occurred"
    case RolePolicyColumn => "unable to create role policy; an unknown error occurred"
  }

  /** The message of a delete-by-id on a name that matches no row. */
  function DeleteFailed(c: Column): string
  {
    match c
    case PolicyColumn => "unable to delete policy; an unknown error occurred"
    case RolePolicyColumn => "unable to delete role policy; an unknown error occurred"
  }

  /** The message of a delete-all on a name that matches no row. */
  function DeleteAllFailed(c: Column): string
  {
    match c
    case PolicyColumn => "unable to delete policies; an unknown error occurred"
    case RolePolicyColumn => "unable to delete role policies; an unknown error occurred"
  }

  function Ids(docs: seq<Doc>): set<string>
  {
    set d | d in docs :: d.id
  }

  /** No two elements of the array share an id. */
  predicate UniqueIds(docs: seq<Doc>)
  {
    forall i, j :: 0 <= i < j < |docs| ==> docs[i].id != docs[j].id
  }

  /** Ids are unique within each array of each service (not across services). */
  predicate IdsUnique(t: Table)
  {
    forall n, c :: n in t ==> UniqueIds(Cells(t[n], c))
  }

  function OrEmpty(s: Option<seq<Doc>>): seq<Doc>
  {
    match s
    case None => []
    case Some(docs) => docs
  }

  /** The row CreateService inserts for `s`: an absent array is stored as `[]`, never as null. */
  function StoredRow(s: Service): Row
  {
    Row(s.kind, OrEmpty(s.policies), OrEmpty(s.rolePolicies), s.metadata)
  }

  /**
   The service `scanService` decodes from a row; stored arrays are never null,
   so the decoded service has both arrays, and storing it gives the row back.
   */
  function ServiceOf(name: string, r: Row): (s: Service)
    ensures s.name == name
    ensures s.policies.Some? && s.rolePolicies.Some?
    ensures StoredRow(s) == r
  {
    Service(name, r.kind, Some(r.policies), Some(r.rolePolicies), r.metadata)
  }
}

=== FILE: sub_documents.dfy ===
/**
 Id-addressed CRUD of the elements of one array column of one service row,
 written once over a `Column` selector. The SQL it models uses jsonb `||`
 (append one element), jsonb `-` with an integer (remove the element at a
 0-based index), `jsonb_array_elements ... WITH ORDINALITY` (pair each element
 with its 1-based position) and `jsonb_array_length`.
 */
module SubDocuments {
  import opened StoreTypes
  import opened RowScans

  /** The 0-based index of the first element carrying `id`, or `|docs|` if none does. */
  function FirstIndex(docs: seq<Doc>, id: string): (i: nat)
    ensures i <= |docs|
    ensures i < |docs| <==> id in Ids(docs)
    ensures i < |docs| ==> docs[i].id == id
    ensures forall j :: 0 <= j < i ==> docs[j].id != id
    decreases |docs|
  {
    if docs == [] then 0
    else if docs[0].id == id then 0
    else
      var i := 1 + FirstIndex(docs[1..], id);
      assert id in Ids(docs) ==> id in Ids(docs[1..]) by {
        if id in Ids(docs) {
          var d :| d in docs && d.id == id;
          assert d in docs[1..];
        }
      }
      i
  }

  /** How many elements carry `id`. */
  function Occurrences(docs: seq<Doc>, id: string): (n: nat)
    ensures n <= |docs|
    ensures n == 0 <==> id !in Ids(docs)
    decreases |docs|
  {
    if docs == [] then 0
    else
      var n := (if docs[0].id == id then 1 else 0) + Occurrences(docs[1..], id);
      assert Ids(docs) == {docs[0].id} + Ids(docs[1..]) by {
        assert docs == [docs[0]] + docs[1..];
      }
      n
  }

  /** jsonb `-` with an integer: the array without its element at 0-based index `i`, order kept. */
  function RemoveAt(docs: seq<Doc>, i: nat): (r: seq<Doc>)
    requires i < |docs|
    ensures |r| == |docs| - 1
    ensures forall j :: 0 <= j < i ==> r[j] == docs[j]
    ensures forall j :: i <= j < |r| ==> r[j] == docs[j + 1]
    ensures multiset(r) + multiset{docs[i]} == multiset(docs)
  {
    assert docs == docs[..i] + [docs[i]] + docs[i + 1..];
    Without(docs, i)
  }

  /**
   The row `name` changed in column `c` only: same services, every other
   service untouched, and the other column, type and metadata of `name` kept.
   */
  predicate OnlyColumnChanged(t: Table, t': Table, name: string, c: Column)
  {
    && t'.Keys == t.Keys
    && name in t
    && (forall n :: n in t && n != name ==> t'[n] == t[n])
    && t'[name].kind == t[name].kind
    && t'[name].metadata == t[name].metadata
    && (forall c' :: c' != c ==> Cells(t'[name], c') == Cells(t[name], c'))
  }

  /**
   Create: the caller's id is replaced by `freshId` (a new random UUID in the
   store) and the element is appended with `||` to the array of the row named
   `name`. A name that matches no row affects zero rows, which is an error.
   */
  function CreateDoc(t: Table, name: string, c: Column, doc: Doc, freshId: string): (r: Result<(Table, Doc)>)
    requires name in t ==> freshId !in Ids(Cells(t[name], c))
    ensures r.Ok? <==> name in t
    ensures r.Err? ==> r.error == RowsUnaffected(CreateFailed(c))
    ensures r.Ok? ==> r.value.1.id == freshId && r.value.1.payload == doc.payload
    ensures r.Ok? ==> OnlyColumnChanged(t, r.value.0, name, c)
    ensures r.Ok? ==> Cells(r.value.0[name], c) == Cells(t[name], c) + [r.value.1]
  {
    if name !in t then Err(RowsUnaffected(CreateFailed(c)))
    else
      var stored := doc.(id := freshId);
      Ok((t[name := WithCells(t[name], c, Cells(t[name], c) + [stored])], stored))
  }

  /**
   Delete by id: the position subquery finds the 1-based ordinal of the element
   carrying `id`, and the update removes the element at that ordinal minus one.
   A name that matches no row affects zero rows; an id no element carries is an
   error and changes nothing; an id carried by several elements makes the scalar
   subquery return more than one row, which is an error.
   */
  function DeleteDoc(t: Table, name: string, c: Column, id: string): (r: Result<Table>)
    ensures r.Ok? <==> name in t && Occurrences(Cells(t[name], c), id) == 1
    ensures name !in t ==> r == Err(RowsUnaffected(DeleteFailed(c)))
    ensures name in t && id !in Ids(Cells(t[name], c)) ==> r == Err(UnknownElement)
    ensures name in t && Occurrences(Cells(t[name], c), id) > 1 ==> r == Err(MultipleMatches)
    ensures r.Ok? ==> OnlyColumnChanged(t, r.value, name, c)
    ensures r.Ok? ==> |Cells(r.value[name], c)| == |Cells(t[name], c)| - 1
    ensures r.Ok? ==> id !in Ids(Cells(r.value[name], c))
    ensures r.Ok? ==> exists p :: 0 <= p < |Cells(t[name], c)| && Cells(t[name], c)[p].id == id
                                  && Cells(r.value[name], c) == RemoveAt(Cells(t[name], c), p)
  {
    if name !in t then Err(RowsUnaffected(DeleteFailed(c)))
    else
      var docs := Cells(t[name], c);
      var n := Occurrences(docs, id);
      if n == 0 then Err(UnknownElement)
      else if n > 1 then Err(MultipleMatches)
      else
        var position := FirstIndex(docs, id) + 1;
        var rest := RemoveAt(docs, position - 1);
        RemovedOnlyOccurrence(docs, id, position - 1);
        Ok(t[name := WithCells(t[name], c, rest)])
  }

  /** Removing the only element carrying `id` leaves no element carrying it. */
  lemma {:induction false} RemovedOnlyOccurrence(docs: seq<Doc>, id: string, p: nat)
    requires p < |docs| && docs[p].id == id && Occurrences(docs, id) == 1
    ensures id !in Ids(RemoveAt(docs, p))
    decreases |docs|
  {
    if p == 0 {
      assert RemoveAt(docs, p) == docs[1..];
    } else {
      assert docs[1..][p - 1] == docs[p];
      assert id in Ids(docs[1..]);
      RemovedOnlyOccurrence(docs[1..], id, p - 1);
      assert RemoveAt(docs, p) == [docs[0]] + RemoveAt(docs[1..], p - 1);
    }
  }

  /** Delete all: the array becomes `'[]'`; a name that matches no row is an error. */
  function DeleteAllDocs(t: Table, name: string, c: Column): (r: Result<Table>)
    ensures r.Ok? <==> name in t
    ensures r.Err? ==> r.error == RowsUnaffected(DeleteAllFailed(c))
    ensures r.Ok? ==> OnlyColumnChanged(t, r.value, name, c)
    ensures r.Ok? ==> Cells(r.value[name], c) == []
  {
    if name !in t then Err(RowsUnaffected(DeleteAllFailed(c)))
    else Ok(t[name := WithCells(t[name], c, [])])
  }

  /**
   Get by id: the first row of the join of the service row with its elements
   whose id matches. No such row, whether the service or the element is
   missing, makes `Scan` fail.
   */
  function GetDoc(t: Table, name: string, c: Column, id: string): (r: Result<Doc>)
    ensures r.Ok? <==> name in t && id in Ids(Cells(t[name], c))
    ensures r.Err? ==> r.error == NoRows
    ensures r.Ok? ==> r.value in Cells(t[name], c) && r.value.id == id
  {
    if name !in t then Err(NoRows)
    else
      var docs := Cells(t[name], c);
      var i := FirstIndex(docs, id);
      if i == |docs| then Err(NoRows) else Ok(docs[i])
  }

  /** List: the whole array in stored order; `filter` is accepted and ignored. */
  function ListDocs(t: Table, name: string, c: Column, filter: string): (r: Result<seq<Doc>>)
    ensures r.Ok? <==> name in t
    ensures r.Err? ==> r.error == NoRows
    ensures r.Ok? ==> r.value == Cells(t[name], c)
  {
    if name !in t then Err(NoRows) else Ok(Cells(t[name], c))
  }

  /**
   Count: for a non-empty name the length of that service's array (no row is an
   error, not 0); for the empty name the sum of the lengths over every row,
   which is 0 for an empty table.
   */
  function CountDocs(t: Table, name: string, c: Column, scan: seq<string>): (r: Result<nat>)
    requires Enumerates(scan, t.Keys)
    ensures name == "" ==> r == Ok(SumLengths(t, c, scan))
    ensures name == "" && |t| == 0 ==> r == Ok(0)
    ensures name != "" ==> (r.Ok? <==> name in t)
    ensures name != "" && r.Ok? ==> r.value == |Cells(t[name], c)|
    ensures r.Err? ==> r.error == NoRows
  {
    if name == "" then
      EnumerationSize(scan, t.Keys);
      Ok(SumLengths(t, c, scan))
    else if name in t then Ok(|Cells(t[name], c)|)
    else Err(NoRows)
  }

  // ---------------------------------------------------------------------------
  // Properties relating the operations

  /** Create then Get with the returned id yields the created element; List ends with it. */
  lemma CreateThenGet(t: Table, name: string, c: Column, doc: Doc, freshId: string, filter: string)
    requires name in t && freshId !in Ids(Cells(t[name], c))
    ensures CreateDoc(t, name, c, doc, freshId).Ok?
    ensures var (t', d) := CreateDoc(t, name, c, doc, freshId).value;
      && GetDoc(t', name, c, freshId) == Ok(d)
      && ListDocs(t', name, c, filter) == Ok(Cells(t[name], c) + [d])
  {
    var (t', d) := CreateDoc(t, name, c, doc, freshId).value;
    var docs := Cells(t'[name], c);
    var i := FirstIndex(docs, freshId);
    assert docs[|docs| - 1] == d;
    forall j | 0 <= j < |docs| - 1 ensures docs[j].id != freshId {
      assert docs[j] in Cells(t[name], c);
    }
  }

  /** Create adds one to the service's count and one to the all-services count. */
  lemma {:induction false} CreateThenCount(t: Table, name: string, c: Column, doc: Doc, freshId: string, scan: seq<string>)
    requires name != "" && name in t && freshId !in Ids(Cells(t[name], c))
    requires Enumerates(scan, t.Keys)
    ensures var t' := CreateDoc(t, name, c, doc, freshId).value.0;
      && CountDocs(t', name, c, scan) == Ok(|Cells(t[name], c)| + 1)
      && CountDocs(t', "", c, scan) == Ok(CountDocs(t, "", c, scan).value + 1)
  {
    var t' := CreateDoc(t, name, c, doc, freshId).value.0;
    assert t' == t[name := t'[name]];
    SumAfterUpdate(t, c, scan, name, t'[name]);
  }

  /** A successful delete drops the service's count and the all-services count by one. */
  lemma DeleteThenCount(t: Table, name: string, c: Column, id: string, scan: seq<string>)
    requires name != "" && Enumerates(scan, t.Keys)
    requires name in t && Occurrences(Cells(t[name], c), id) == 1
    ensures var t' := DeleteDoc(t, name, c, id).value;
      && CountDocs(t', name, c, scan) == Ok(|Cells(t[name], c)| - 1)
      && CountDocs(t', "", c, scan) == Ok(CountDocs(t, "", c, scan).value - 1)
  {
    var r := DeleteDoc(t, name, c, id);
    assert r.Ok?;
    ShrinkCount(t, r.value, name, c, scan);
  }

  /** A column that loses one element lowers the service's count and the all-services count by one. */
  lemma ShrinkCount(t: Table, t': Table, name: string, c: Column, scan: seq<string>)
    requires name != "" && Enumerates(scan, t.Keys) && OnlyColumnChanged(t, t', name, c)
    requires |Cells(t'[name], c)| == |Cells(t[name], c)| - 1
    ensures Enumerates(scan, t'.Keys)
    ensures CountDocs(t', name, c, scan) == Ok(|Cells(t[name], c)| - 1)
    ensures CountDocs(t', "", c, scan) == Ok(CountDocs(t, "", c, scan).value - 1)
  {
    ColumnChangeCount(t, t', name, c, scan);
  }

  /** When one column of one row changes, the all-services count changes by the difference in its length. */
  lemma ColumnChangeCount(t: Table, t': Table, name: string, c: Column, scan: seq<string>)
    requires Enumerates(scan, t.Keys) && OnlyColumnChanged(t, t', name, c)
    ensures Enumerates(scan, t'.Keys)
    ensures SumLengths(t', c, scan) + |Cells(t[name], c)| == SumLengths(t, c, scan) + |Cells(t'[name], c)|
  {
    assert t' == t[name := t'[name]];
    SumAfterUpdate(t, c, scan, name, t'[name]);
  }

  /** After a successful delete, Get and Delete of the same id fail. */
  lemma DeleteThenGet(t: Table, name: string, c: Column, id: string)
    requires DeleteDoc(t, name, c, id).Ok?
    ensures GetDoc(DeleteDoc(t, name, c, id).value, name, c, id) == Err(NoRows)
    ensures DeleteDoc(DeleteDoc(t, name, c, id).value, name, c, id) == Err(UnknownElement)
  {
  }

  /** Delete all then List yields an empty (not absent) array. */
  lemma DeleteAllThenList(t: Table, name: string, c: Column, filter: string)
    requires name in t
    ensures ListDocs(DeleteAllDocs(t, name, c).value, name, c, filter) == Ok([])
  {
  }

  /** In an array whose ids are unique, an id that is present occurs exactly once. */
  lemma {:induction false} UniqueOccursOnce(docs: seq<Doc>, id: string)
    requires UniqueIds(docs) && id in Ids(docs)
    ensures Occurrences(docs, id) == 1
    decreases |docs|
  {
    var tail := docs[1..];
    assert UniqueIds(tail) by {
      forall i, j | 0 <= i < j < |tail| ensures tail[i].id != tail[j].id {
        assert tail[i] == docs[i + 1] && tail[j] == docs[j + 1];
      }
    }
    if docs[0].id == id {
      forall k | 0 <= k < |tail| ensures tail[k].id != id {
        assert tail[k] == docs[k + 1];
      }
    } else {
      assert id in Ids(tail) by {
        var d :| d in docs && d.id == id;
        assert d in tail;
      }
      UniqueOccursOnce(tail, id);
    }
  }

  /**
   With unique ids, delete-by-id succeeds exactly when get-by-id does, and it
   removes exactly the element get-by-id returns.
   */
  lemma DeleteAddressesGetResult(t: Table, name: string, c: Column, id: string)
    requires IdsUnique(t)
    ensures DeleteDoc(t, name, c, id).Ok? <==> GetDoc(t, name, c, id).Ok?
    ensures DeleteDoc(t, name, c, id).Ok? ==>
      exists p :: 0 <= p < |Cells(t[name], c)|
        && Cells(t[name], c)[p] == GetDoc(t, name, c, id).value
        && Cells(DeleteDoc(t, name, c, id).value[name], c) == RemoveAt(Cells(t[name], c), p)
  {
    if name in t && id in Ids(Cells(t[name], c)) {
      UniqueOccursOnce(Cells(t[name], c), id);
      var docs := Cells(t[name], c);
      var p := FirstIndex(docs, id);
      assert Cells(DeleteDoc(t, name, c, id).value[name], c) == RemoveAt(docs, p);
    }
  }

  /** With unique ids, Get of every listed element's id returns that element. */
  lemma GetFindsEveryListed(t: Table, name: string, c: Column, i: nat)
    requires name in t && UniqueIds(Cells(t[name], c)) && i < |Cells(t[name], c)|
    ensures GetDoc(t, name, c, Cells(t[name], c)[i].id) == Ok(Cells(t[name], c)[i])
  {
    var docs := Cells(t[name], c);
    assert docs[i] in docs;
    var k := FirstIndex(docs, docs[i].id);
    assert k == i;
  }

  // ---------------------------------------------------------------------------
  // Id uniqueness is an invariant of the operations

  lemma CreatePreservesUnique(t: Table, name: string, c: Column, doc: Doc, freshId: string)
    requires IdsUnique(t)
    requires name in t ==> freshId !in Ids(Cells(t[name], c))
    ensures CreateDoc(t, name, c, doc, freshId).Ok? ==> IdsUnique(CreateDoc(t, name, c, doc, freshId).value.0)
  {
    if name in t {
      var t' := CreateDoc(t, name, c, doc, freshId).value.0;
      var docs := Cells(t'[name], c);
      forall i, j | 0 <= i < j < |docs| ensures docs[i].id != docs[j].id {
        if j == |docs| - 1 {
          assert docs[i] in Cells(t[name], c);
        }
      }
      forall n, c' | n in t' ensures UniqueIds(Cells(t'[n], c')) {
        if n != name || c' != c {
          assert n == name ==> Cells(t'[n], c') == Cells(t[n], c');
        }
      }
    }
  }

  lemma DeletePreservesUnique(t: Table, name: string, c: Column, id: string)
    requires IdsUnique(t)
    ensures DeleteDoc(t, name, c, id).Ok? ==> IdsUnique(DeleteDoc(t, name, c, id).value)
  {
    if DeleteDoc(t, name, c, id).Ok? {
      var t' := DeleteDoc(t, name, c, id).value;
      var before := Cells(t[name], c);
      var p :| 0 <= p < |before| && before[p].id == id && Cells(t'[name], c) == RemoveAt(before, p);
      var docs := Cells(t'[name], c);
      forall i, j | 0 <= i < j < |docs| ensures docs[i].id != docs[j].id {
        var i' := if i < p then i else i + 1;
        var j' := if j < p then j else j + 1;
        assert docs[i] == before[i'] && docs[j] == before[j'];
      }
      forall n, c' | n in t' ensures UniqueIds(Cells(t'[n], c')) {
        if n != name || c' != c {
          assert n == name ==> Cells(t'[n], c') == Cells(t[n], c');
        }
      }
    }
  }

  lemma DeleteAllPreservesUnique(t: Table, name: string, c: Column)
    requires IdsUnique(t)
    ensures DeleteAllDocs(t, name, c).Ok? ==> IdsUnique(DeleteAllDocs(t, name, c).value)
  {
    if name in t {
      var t' := DeleteAllDocs(t, name, c).value;
      forall n, c' | n in t' ensures UniqueIds(Cells(t'[n], c')) {
        if n != name || c' != c {
          assert n == name ==> Cells(t'[n], c') == Cells(t[n], c');
        }
      }
    }
  }
}
